=== FILE: README.md ===
# Stash viewer model

A Dafny model of the core of a Path of Exile stash viewer. The viewer shows a
catalog of stash tabs and lets the user narrow the selected tab's items with a
search box, a rarity selector and a category selector. Filtered items appear on
a 12- or 24-column grid. Hovering over an item opens a detail panel next to the
pointer.

The model covers:

- **StashTypes**: the data model: items, tabs, sockets, modifiers, properties.
- **Catalog**: the shipped catalog of three tabs and fifteen items.
- **StashFilter**: the three-stage filter pipeline of the stash page.
- **StashPage**: the page wiring: the initial tab, the hover handlers, and the grid fed with the filtered items.
- **ItemGrid**: the grid dispatch between the tab prompt, the empty message and the card grid, plus the column count.
- **ItemCard**: one card's grid area, image size, hover title, stack badge and border colour.
- **TooltipPlacement**: where the detail panel goes, and the style state that shows or hides it.
- **TooltipText**: the panel's text: modifier lines, socket link groups, capitalised influence labels and the colour tables.
- **Seqs** and **Strings**: the JavaScript primitives these rely on:
  - `Array.prototype.filter`;
  - ASCII `toLowerCase`/`toUpperCase`, `startsWith`, `includes`;
  - the decimal rendering of integers in template literals.
- **Footprint**: a footprint-disjointness predicate over the data and a checker for it. The viewer itself checks nothing (see below).
- **CatalogText** and **CatalogFacts**: properties of the shipped catalog:
  - geometry and distinct ids;
  - the rendered modifier lines;
  - socket groups;
  - concrete filter results.

## Behaviour worth noting

- Hiding keeps the last `top`/`left` in the panel's style; only the opacity drops to 0 (`TooltipPlacement.HideKeepsLastPlacement`).
- The grid receives the **filtered** items. Positions still come from each item's own fields, so filtering never changes a remaining card's grid area (`StashPage.FilteringKeepsCardPlacement`). Rows carry no fixed height, so a card can still move up on screen when every item of a row above it is filtered out.
- Nothing rejects an item that leaves the tab's columns or overlaps another. Every item is rendered.
  - `Footprint` is a footprint-disjointness predicate over the data, with a checker.
  - The shipped gear tab is not disjoint: gear2 and gear3 share two cells (`CatalogFacts.Tab2Overlaps`).
- The catalog fits in 8 columns even though its tabs are 12 wide (`CatalogFacts.CatalogGeometry`).

## Model

| member | source | states |
|---|---|---|
| Seqs.Filter | src/app/stash/page.tsx:44-47 | a filter result is no longer than its input; every kept element comes from the input and passes; every passing input element is kept |
| Seqs.FilterAppend | src/app/stash/page.tsx:44-47 | filtering `s + [x]` is filtering `s`, followed by `x` exactly when `x` passes |
| Seqs.FilterEmbedding | src/app/stash/page.tsx:44-47 | the kept positions form a strictly increasing embedding of the result into the input |
| Seqs.FilterIsSubsequence | src/app/stash/page.tsx:44-47 | a filter never reorders: its result is a subsequence of the input |
| Seqs.FilterKeepsAll | src/app/stash/page.tsx:44-47 | when every element passes, the input comes back unchanged |
| Seqs.FilterKeepsNone | src/app/stash/page.tsx:44-47 | when no element passes, the result is empty |
| Seqs.FilterCongruent | src/app/stash/page.tsx:44-47 | predicates that agree everywhere filter alike |
| Seqs.FilterFilter | src/app/stash/page.tsx:39-86 | two filters in a row equal one filter by the conjunction |
| Seqs.FilterIdempotent | src/app/stash/page.tsx:44-47 | filtering a filter result again by the same predicate changes nothing |
| Seqs.FilterMultiplicity | src/app/stash/page.tsx:44-47 | every copy of a passing element is kept and every copy of a failing one dropped (a multiset statement) |
| Seqs.FilterConcat | src/app/stash/page.tsx:44-47 | filtering distributes over concatenation |
| Seqs.FilterSelectsOne | src/app/stash/page.tsx:44-47 | when exactly position `k` passes, the result is that one element |
| Seqs.FilterSelectsTwo | src/app/stash/page.tsx:44-47 | when exactly positions `a < b` pass, the result is those two, in that order |
| Seqs.FilterKeepsPrefix | src/app/stash/page.tsx:44-47 | when exactly the first `b` elements pass, the result is that prefix |
| Seqs.FilterKeepsSuffix | src/app/stash/page.tsx:44-47 | when exactly the elements from `b` on pass, the result is that suffix |
| Strings.Lower | src/app/stash/page.tsx:43 | lower-casing keeps the length and maps each character on its own |
| Strings.LowerIdempotent | src/app/stash/page.tsx:43 | lower-casing twice is lower-casing once |
| Strings.LowerOfUpperChar | src/components/stash/ItemDetailTooltip.tsx:144 | upper-casing a character and then lower-casing it gives its lower-case form |
| Strings.LowerMissing | src/app/stash/page.tsx:66 | a lower-case letter absent from `s` in both cases is absent from `Lower(s)` |
| Strings.ContainsEmpty | src/app/stash/page.tsx:45-46 | every string contains the empty string |
| Strings.ContainsNeedsEveryChar | src/app/stash/page.tsx:45-46 | a string that lacks one character of the needle does not contain the needle |
| Strings.NatToString | src/components/stash/ItemDetailTooltip.tsx:56-62 | a natural number renders as a non-empty string of decimal digits, starting with 0 only for zero, and never with a leading zero when it has more than one digit |
| Strings.ParseNatToString | src/components/stash/ItemDetailTooltip.tsx:56-62 | reading back the digits of `n` gives `n` |
| Strings.IntToString | src/components/stash/ItemDetailTooltip.tsx:56-62 | an integer renders as a non-empty string that starts with `-` exactly for a negative value; every character after the first is a digit, and so is the first for a non-negative value |
| Strings.ParseIntToString | src/components/stash/ItemDetailTooltip.tsx:56-62 | reading back the rendering of `i` gives `i` |
| StashFilter.RarityCodeRoundTrip | src/app/stash/page.tsx:53-58 | the rarity selectors and frame types 0..3 correspond one to one; no other code has a selector |
| StashFilter.RaritySelectorsAreKnown | src/components/stash/StashControls.tsx:47-51 | every rarity option except "all" names a frame type |
| StashFilter.MatchesSearch | src/app/stash/page.tsx:43-46 | the search test: the lower-cased term occurs in the lower-cased name, or in a non-empty lower-cased type line; a matching term is no longer than the name or the type line |
| StashFilter.MatchesRarity | src/app/stash/page.tsx:53-58 | the rarity test: the frame type equals the selector's code, and a selector without a code lets everything through; an item without a frame type passes exactly the selectors without a code |
| StashFilter.MatchesCategory | src/app/stash/page.tsx:66-81 | the category table; every named category needs a defined frame type, and an unknown selector lets everything through |
| StashFilter.SearchGuardRedundant | src/app/stash/page.tsx:42 | with an empty term the search filter would keep every item, so the `if (searchTerm)` guard changes no result |
| StashFilter.SearchIgnoresTermCase | src/app/stash/page.tsx:43 | the search ignores the term's case: a lower-cased term matches the same items |
| StashFilter.SearchStage | src/app/stash/page.tsx:42-48 | an item survives the search stage exactly when it was present and the term is empty or matches |
| StashFilter.RarityStage | src/app/stash/page.tsx:50-61 | an item survives the rarity stage exactly when it was present and the selector is "all" or matches |
| StashFilter.CategoryStage | src/app/stash/page.tsx:63-84 | an item survives the category stage exactly when it was present and the selector is "all" or matches |
| StashFilter.FilteredItems | src/app/stash/page.tsx:36-87 | no tab gives nothing; otherwise an item is shown exactly when it is in the tab and passes all three active stages; with every input inactive the tab's items come back unchanged |
| StashFilter.StageIsFilter | src/app/stash/page.tsx:42-64 | a stage skipped when inactive is one filter by "inactive or passes" |
| StashFilter.SearchStageIsFilter | src/app/stash/page.tsx:42-48 | the search stage is one filter by its guard |
| StashFilter.RarityStageIsFilter | src/app/stash/page.tsx:50-61 | the rarity stage is one filter by its guard |
| StashFilter.CategoryStageIsFilter | src/app/stash/page.tsx:63-84 | the category stage is one filter by its guard |
| StashFilter.PipelineIsConjunction | src/app/stash/page.tsx:36-87 | the three stages in sequence are one stable filter by the conjunction of their guards |
| StashFilter.FilteredItemsIsSubsequence | src/app/stash/page.tsx:36-87 | the shown items keep the tab's order |
| StashFilter.FilteredItemsIdempotent | src/app/stash/page.tsx:36-87 | running the pipeline on its own output with the same inputs changes nothing |
| StashFilter.SearchSurvivors | src/app/stash/page.tsx:42-48 | with only a search term, an item survives exactly when the lower-cased term occurs in its lower-cased name or type line |
| StashFilter.RaritySurvivorsMatch | src/app/stash/page.tsx:53-57 | a rarity selector that names a frame type admits only items of exactly that frame type |
| StashFilter.NoFrameTypeFailsRarity | src/app/stash/page.tsx:53-57 | an item without a frame type never survives such a selector |
| StashFilter.UnknownRarityKeepsAll | src/app/stash/page.tsx:58 | a rarity selector that names no frame type lets everything through |
| StashFilter.UnknownCategoryKeepsAll | src/app/stash/page.tsx:81 | a category selector outside the vocabulary lets everything through |
| StashFilter.CategoryRules | src/app/stash/page.tsx:66-80 | currency, gem and divcard are frame types 5, 4, 6; flask, map and equipment need a defined frame type of at most 3; among those items, equipment means neither flask nor map |
| StashFilter.RarityExcludesNonEquipment | src/app/stash/page.tsx:53-58 | no rarity selector other than "all" admits a gem, currency or divination card |
| StashPage.InitialTab | src/app/stash/page.tsx:12-14 | the first tab is selected, or none for an empty catalog; for the shipped catalog that is the currency tab (`CatalogFacts.OpeningPage`) |
| StashPage.MouseEnter | src/app/stash/page.tsx:21-24 | entering a card records that item, with the pointer position set alongside it |
| StashPage.RunFromLastEvent | src/app/stash/page.tsx:15-29 | any sequence of enter and leave events keeps the item and the pointer position set together, and the state after it is decided by the last event alone |
| StashPage.PanelFollowsLastEvent | src/app/stash/page.tsx:15-29 | from the opening state, a mounted panel is shown after a sequence of events exactly when the last event entered a card, and it then shows that card's item |
| StashPage.LeavingHidesPanel | src/app/stash/page.tsx:26-29 | after the pointer leaves, the panel is hidden and keeps its last `top`/`left` |
| StashPage.EnteringShowsPanel | src/app/stash/page.tsx:21-24 | entering a card with the panel mounted shows it, with both `top` and `left` at the placement computed for the pointer position `(clientX, clientY)` |
| StashPage.StashView | src/app/stash/page.tsx:118-124 | no tab shows the prompt; a grid is laid out on the selected tab's column count |
| StashPage.NoItemsMessageIffNoneKept | src/app/stash/page.tsx:118-124 | for a tab of known kind, the empty message shows exactly when no item of the tab passes the filters |
| StashPage.NoTabShowsPrompt | src/app/stash/page.tsx:37 | with no tab selected the page shows the prompt, whatever the filters |
| StashPage.FilteringKeepsCardPlacement | src/app/stash/page.tsx:118-124 | every card of a filtered grid is a card of the unfiltered grid of the same tab, at the same area and with the same column count |
| StashPage.FilteredCardsInTabOrder | src/app/stash/page.tsx:118-124 | the filtered grid has one card per surviving item, and the survivors keep the tab's order |
| ItemGrid.ColumnCount | src/components/stash/ItemGrid.tsx:27 | 24 columns exactly for a quad tab, otherwise 12 |
| ItemGrid.RenderGrid | src/components/stash/ItemGrid.tsx:14-37 | the prompt exactly when there is no tab kind; the message exactly for a tab with no items; otherwise one card per item, in order, on the tab's column count |
| ItemGrid.NoTabShowsPrompt | src/components/stash/ItemGrid.tsx:15-17 | a missing or empty tab kind shows the prompt whatever the items |
| ItemGrid.CardsFollowItems | src/components/stash/ItemGrid.tsx:30-37 | each card sits at its own item's grid area and is keyed by the item's id |
| ItemCard.GridPlacement | src/components/stash/ItemCard.tsx:36-40 | the area covers the 1-based track `(col + 1, row + 1)` exactly when the item's 0-based footprint occupies `(col, row)`; the spans are the item's size |
| ItemCard.PlacementDependsOnFootprint | src/components/stash/ItemCard.tsx:36-40 | two items share a grid area exactly when their positions and sizes agree |
| ItemCard.ImageSize | src/components/stash/ItemCard.tsx:48-49 | the image box is 40 pixels per grid track the card spans, in each direction, so it has the footprint's aspect ratio |
| ItemCard.AspectRatioRoundTrip | src/components/stash/ItemCard.tsx:41 | the card's `aspectRatio` style "w / h" reads back, split at its first space, as the item's width and height |
| ItemCard.Title | src/components/stash/ItemCard.tsx:32 | the title starts with the item's name, and is exactly the name when the stack size is absent or zero |
| ItemCard.TitleRoundTrip | src/components/stash/ItemCard.tsx:32 | the hover title carries the stack size exactly when the stack size is present and non-zero, and then it reads back as that size |
| ItemCard.BadgeImpliesTitledStack | src/components/stash/ItemCard.tsx:53 | whenever the stack badge shows, the title names the stack size |
| ItemCard.BorderClass | src/components/stash/ItemCard.tsx:13-25 | the neutral border exactly outside frame types 1..6 |
| ItemCard.BorderClassesDistinct | src/components/stash/ItemCard.tsx:13-25 | frame types 1..6 get pairwise different borders; frame type 0, an absent frame type and any other value get the neutral one |
| ItemCard.MakeCard | src/components/stash/ItemGrid.tsx:31-36 | a card is keyed by its item's id and shows a badge exactly when the badge rule holds |
| TooltipPlacement.PlaceAxis | src/components/stash/ItemDetailTooltip.tsx:169-188 | an axis is never placed nearer than the offset to the near edge; a panel that fits goes offset past the pointer; a pointer before the viewport start pins a fitting panel to the margin; a panel that would cross the far margin is flipped before the pointer when the flip clears the near margin, and pinned to the margin otherwise |
| TooltipPlacement.Place | src/components/stash/ItemDetailTooltip.tsx:169-188 | both coordinates are at least the offset |
| TooltipPlacement.AxesIndependent | src/components/stash/ItemDetailTooltip.tsx:169-188 | `top` depends only on the vertical inputs and `left` only on the horizontal ones |
| TooltipPlacement.PanelStaysInside | src/components/stash/ItemDetailTooltip.tsx:169-188 | for a pointer inside the viewport and a panel that fits between the margins, the panel lies within the margins |
| TooltipPlacement.PlacedPanelInsideViewport | src/components/stash/ItemDetailTooltip.tsx:169-188 | the same containment in both axes |
| TooltipPlacement.OversizedPanelPinned | src/components/stash/ItemDetailTooltip.tsx:173-179 | a panel larger than the space between the margins is pinned to the near margin |
| TooltipPlacement.PointerOutsideBreaksContainment | src/components/stash/ItemDetailTooltip.tsx:182-188 | a pointer reported past the right edge puts a fitting panel beyond the right margin |
| TooltipPlacement.NearRightEdgeScenario | src/components/stash/ItemDetailTooltip.tsx:169-188 | pointer (1900, 100), panel 200 by 400, viewport 1920 by 1080: the panel is flipped left to 1680 and put below at 120 |
| TooltipPlacement.InitialStyleHidden | src/components/stash/ItemDetailTooltip.tsx:150-155 | the panel starts hidden, fixed, at z-index 50 and transparent to the pointer, with no placement; every run keeps the fixed parts, and a run that does not show the panel leaves the initial style unchanged |
| TooltipPlacement.UpdateStyle | src/components/stash/ItemDetailTooltip.tsx:158-200 | positioning, stacking order and pointer transparency never change; shown exactly when item, coordinates and panel are all present, and then at the computed placement; otherwise only the opacity drops to 0 |
| TooltipPlacement.ShownPanelRespectsMargins | src/components/stash/ItemDetailTooltip.tsx:177-194 | a shown panel has `top` and `left` set, each at least the offset |
| TooltipPlacement.HideKeepsLastPlacement | src/components/stash/ItemDetailTooltip.tsx:196-199 | hiding after a show keeps the shown coordinates |
| TooltipPlacement.OpacityIsBinary | src/components/stash/ItemDetailTooltip.tsx:151-199 | the opacity is always 0 or 1 |
| TooltipText.TypePrefix | src/components/stash/ItemDetailTooltip.tsx:40-50 | the prefix is empty exactly for a plain modifier; otherwise it is the sub-kind's stored tag, capitalised, in parentheses and followed by a space: "(Crafted) ", "(Enchant) ", "(Fractured) " |
| TooltipText.ModClass | src/components/stash/ItemDetailTooltip.tsx:39-50 | a line always has a class; a plain modifier gets the list's default when that is non-empty, and blue exactly otherwise |
| TooltipText.ModClassRules | src/components/stash/ItemDetailTooltip.tsx:39-50 | a sub-kind decides the class whatever the default, the three sub-kinds get three classes, and none of them is the blue fallback |
| TooltipText.ValueText | src/components/stash/ItemDetailTooltip.tsx:55-64 | the shown number is non-empty; it opens with `(` exactly for a range, and with `+` exactly for a positive single value whose text starts "to " or "Adds " |
| TooltipText.NumericDisplay | src/components/stash/ItemDetailTooltip.tsx:53-68 | the numeric part is empty exactly when the modifier has no value |
| TooltipText.ModText | src/components/stash/ItemDetailTooltip.tsx:70-84 | a line starts with its sub-kind prefix and ends with its text; it is exactly prefix plus text when there is no value |
| TooltipText.FormatMods | src/components/stash/ItemDetailTooltip.tsx:34-89 | nothing for a missing or empty list, otherwise one line per modifier, in order, with that modifier's text and its class under the list's default |
| Strings.IndexOf | src/components/stash/ItemDetailTooltip.tsx:56 | the index found holds the character and no earlier position does; none is found only when the character is absent |
| Strings.IndexOfFirst | src/components/stash/ItemDetailTooltip.tsx:56 | the first position holding the character is the one found |
| TooltipText.SeparatorIsFirstDash | src/components/stash/ItemDetailTooltip.tsx:56 | in a shown range, the first `-` after the lower bound's first character is the separator, whatever the lower bound's sign |
| TooltipText.ParseRangeText | src/components/stash/ItemDetailTooltip.tsx:56 | `(a-b)` reads back as the range of `a` and `b` when the first `-` after `a`'s first character separates them |
| TooltipText.RangeTextRoundTrip | src/components/stash/ItemDetailTooltip.tsx:56 | every shown range, negative bounds included, reads back as that range |
| TooltipText.SingleTextRoundTrip | src/components/stash/ItemDetailTooltip.tsx:58-63 | a shown single value, with or without its `+`, reads back as that value |
| TooltipText.ValueTextRoundTrip | src/components/stash/ItemDetailTooltip.tsx:54-64 | the shown number determines the stored payload, for every single value and every range |
| TooltipText.GroupStep | src/components/stash/ItemDetailTooltip.tsx:310-315 | appending one socket to its group's bucket, creating the bucket on first sight, keeps the buckets equal to the per-group filters of the longer prefix |
| TooltipText.GroupSockets | src/components/stash/ItemDetailTooltip.tsx:309-315 | the buckets are exactly the groups seen, and each holds its group's sockets in their original order |
| TooltipText.GroupsPartitionSockets | src/components/stash/ItemDetailTooltip.tsx:309-315 | group `g` holds every copy of every socket of group `g` and nothing else, as a subsequence of the sockets |
| TooltipText.SocketColoursDistinct | src/components/stash/ItemDetailTooltip.tsx:91-99 | the four socket colours get four different classes |
| TooltipText.Capitalize | src/components/stash/ItemDetailTooltip.tsx:142-145 | capitalising keeps the length and everything after the first character; the first character ends up not lower-case and is the same letter as before |
| TooltipText.CapitalizeOnlyChangesCase | src/components/stash/ItemDetailTooltip.tsx:142-145 | capitalising preserves the lower-cased form and is idempotent |
| TooltipText.InfluenceLabelsDistinct | src/components/stash/ItemDetailTooltip.tsx:222-235 | each influence has its own label, and its badge is the label's first letter |
| TooltipText.InfluenceClassesDistinct | src/components/stash/ItemDetailTooltip.tsx:114-140 | both influence tables are empty exactly for no influence and tell the six influences apart |
| TooltipText.RarityColourClass | src/components/stash/ItemDetailTooltip.tsx:101-111 | white exactly outside frame types 1..6 |
| TooltipText.RarityColoursDistinct | src/components/stash/ItemDetailTooltip.tsx:101-111 | the rarity colour is white exactly outside frame types 1..6, and frame types 1..6 get different colours |
| Footprint.OverlapIffSharedCell | src/lib/mock-data.ts:39-42 | for non-empty footprints, overlapping intervals in both axes is sharing a cell |
| Footprint.FindOverlap | src/lib/mock-data.ts:39-42 | no pair is reported exactly when the items are pairwise disjoint; a reported pair is ordered, in range and overlapping, and no pair before it in row-major order overlaps |
| CatalogText.GraniteFlaskIsFlask | src/lib/mock-data.ts:289 | the flask's lower-cased type line contains "flask" |
| CatalogText.StrandMapIsMap | src/lib/mock-data.ts:316 | the map's lower-cased type line contains "map" |
| CatalogText.ItemIdsAreDistinct | src/lib/mock-data.ts:70-408 | the fifteen item ids are pairwise different |
| CatalogFacts.CurrencyTabWellFormed | src/lib/mock-data.ts:71-119 | every currency item fits 8 columns, has a frame type in 0..6 and a stack within its cap |
| CatalogFacts.GearTabWellFormed | src/lib/mock-data.ts:120-384 | the same for every gear item |
| CatalogFacts.DivinationTabWellFormed | src/lib/mock-data.ts:385-407 | the same for the divination card |
| CatalogFacts.CatalogGeometry | src/lib/mock-data.ts:70-408 | no tab is a quad tab; every item is well formed and fits its tab's columns; map1 and clusterJewel1 reach the eighth column |
| CatalogFacts.TabsIndexed | src/lib/mock-data.ts:70-408 | tab ids are distinct and each tab's index is its position |
| CatalogFacts.AllItems | src/lib/mock-data.ts:70-408 | every item of every tab is in the catalog's item list |
| CatalogFacts.ItemIdsDistinct | src/components/stash/ItemGrid.tsx:32 | the catalog's fifteen items have pairwise different ids, so no two cards share a key |
| CatalogFacts.Tab1AndTab3Disjoint | src/lib/mock-data.ts:71-119 | the currency and divination tabs have no overlapping footprints |
| CatalogFacts.Tab2Overlaps | src/lib/mock-data.ts:150-214 | gear2 and gear3 both occupy cells (3, 1) and (3, 2), so the gear tab is not pairwise disjoint |
| CatalogFacts.KaomsHeartPlacement | src/lib/mock-data.ts:126-149 | Kaom's Heart, at (0, 0) and 2 by 3, is placed at column 1 and row 1, spanning 2 columns and 3 rows |
| CatalogFacts.BonusLine | src/components/stash/ItemDetailTooltip.tsx:58-60 | a positive bonus line is prefix, `+`, digits, suffix, a space, then the text |
| CatalogFacts.PlainLine | src/components/stash/ItemDetailTooltip.tsx:61-66 | any other single value shows its bare digits: prefix, digits, suffix, a space, then the text |
| CatalogFacts.RangeLine | src/components/stash/ItemDetailTooltip.tsx:55-56 | a range line is prefix, `(lo-hi)`, suffix, a space, then the text |
| CatalogFacts.KaomsHeartModLines | src/lib/mock-data.ts:143-147 | Kaom's Heart shows "+500 to maximum Life", "(40-50)% increased Fire Damage" and "(Crafted) +25 to Strength" |
| CatalogFacts.ClusterJewelEnchantLine | src/lib/mock-data.ts:372 | the cluster jewel's first enchant shows "(Enchant) +12 Adds 12 Passive Skills" |
| CatalogFacts.FourAndTwo | src/components/stash/ItemDetailTooltip.tsx:309-315 | six sockets linked four and two split into those two groups, in order |
| CatalogFacts.GreathelmSocketGroups | src/lib/mock-data.ts:229-236 | the Socketed Greathelm's sockets form a group of four and a group of two |
| CatalogFacts.SearchExaltedScenario | src/app/stash/page.tsx:42-48 | searching the currency tab for "exalted" shows only the Exalted Orb |
| CatalogFacts.MagicRarityScenario | src/app/stash/page.tsx:50-61 | the magic rarity on the gear tab shows the helmet and the flask, in that order |
| CatalogFacts.GearTypeLines | src/lib/mock-data.ts:120-384 | only the flask's gear-tab type line mentions "flask", and only the map's mentions "map" |
| CatalogFacts.TypeLineCategorySelectsOne | src/app/stash/page.tsx:73-79 | with no other filter, a flask or map category shows exactly the one equipment-like item whose type line mentions the word |
| CatalogFacts.FlaskCategoryScenario | src/app/stash/page.tsx:77-79 | the flask category on the gear tab shows only the flask |
| CatalogFacts.MapCategoryScenario | src/app/stash/page.tsx:73-75 | the map category on the gear tab shows only the map |
| CatalogFacts.Gear2SpellDamageLine | src/lib/mock-data.ts:171 | the wand's non-bonus percentage renders as "25% increased Spell Damage" |
| CatalogFacts.OpeningPage | src/app/stash/page.tsx:12-14 | the page opens on the currency tab, with no filter active, as a 12-column grid of its three cards in catalog order |

## Left out

- Rendering by React and the DOM is not modelled: JSX markup, hooks, the `useMemo` dependency list and event objects are left out. The handlers receive the pointer coordinates directly.
- The panel's size and the window size are parameters of `UpdateStyle`. They are measured in the browser, which is not modelled.
- Styles are whole numbers. The `px` strings and CSS class composition beyond the lookup tables are not modelled.
- Numbers are unbounded integers. JavaScript's floating-point numbers are not modelled, so integers beyond 2^53 and fractional values are out of scope.
- The flask's "Seconds Flask Duration" modifier stores 5.5 in the source. The model keeps it without a numeric value because the payload is integral.
- Case mapping covers ASCII letters only. Unicode case folding of names is not modelled.
- Icons are kept as the file name at the end of each image URL. Nothing in the model reads them.
- The sidebar and the controls only feed state into the page. Of them, the model keeps only the selector vocabularies (`RaritySelectors`, `CategorySelectors`).
- The order in which the panel draws socket groups (`Object.values` of the grouping object) is not modelled: `GroupSockets` returns a map. For non-negative integer group numbers that order is ascending.
- The panel's rendering of name, properties, requirements, quality, item level, flavour and description text is not modelled. That includes its display decisions: the quality line is hidden for gems and for a missing quality or one of 0 or less, " / max" follows a stack size only when a non-zero maximum is set, and a requirement shows only the text of its first value.
- The influence tables' grey fallback branches are not modelled. They are unreachable because the influence is one of six values.
- `getSocketColorClass` has a grey fallback branch that is not modelled. It is unreachable because the colour is one of four values.
- ItemCard.MakeCard: a stack size of 0 gets no badge in the model. The component's `stackSize && …` then renders a literal "0" in the card, which the model does not represent.
- Footprint.FindOverlap: the viewer performs no overlap or bounds check. This checker decides a footprint-disjointness predicate over the data and does not claim the viewer enforces it.

=== FILE: catalog.dfy ===
/**
 * The shipped catalog: three tabs (currency, gear, divination cards) and
 * their fifteen items, as the application loads them. Each icon is kept as
 * the file name at the end of its image URL; nothing reads it.
 */
module Catalog {

  import opened Wrappers
  import opened StashTypes

  // ---------------------------------------------------------------------
  // Tab 1: currency
  // ---------------------------------------------------------------------

  const Curr1 := Item(
    id := "curr1",
    name := "Exalted Orb",
    typeLine := "Exalted Orb",
    icon := "CurrencyRerollRare.png",
    w := 1, h := 1, x := 0, y := 0,
    stackSize := Some(3),
    maxStackSize := Some(10),
    frameType := Some(5))

  const Curr2 := Item(
    id := "curr2",
    name := "Chaos Orb",
    typeLine := "Chaos Orb",
    icon := "CurrencyRerollMagic.png",
    w := 1, h := 1, x := 1, y := 0,
    stackSize := Some(152),
    maxStackSize := Some(5000),
    frameType := Some(5),
    corrupted := Some(true))

  const Curr3 := Item(
    id := "curr3",
    name := "Orb of Alchemy",
    typeLine := "Orb of Alchemy",
    icon := "CurrencyUpgradeNormal.png",
    w := 1, h := 1, x := 0, y := 1,
    stackSize := Some(78),
    maxStackSize := Some(5000),
    frameType := Some(5))

  const Tab1 := StashTab(
    id := "tab1",
    name := "💰 Currency",
    tabType := "CurrencyStash",
    index := 0,
    colour := Some(Colour(255, 215, 0)),
    items := [Curr1, Curr2, Curr3])

  // ---------------------------------------------------------------------
  // Tab 2: gear
  // ---------------------------------------------------------------------

  const KaomsHeartMods := [
    Mod(text := "to maximum Life", numericValue := Some(Single(500))),
    Mod(text := "increased Fire Damage", numericValue := Some(Range(40, 50)), valueSuffix := Some("%")),
    Mod(text := "to Strength", numericValue := Some(Single(25)), modType := Some(Crafted))
  ]

  const Gear1 := Item(
    id := "gear1",
    name := "Kaom's Heart",
    typeLine := "Glorious Plate",
    icon := "BodyArmourStr6Unique.png",
    w := 2, h := 3, x := 0, y := 0,
    ilvl := Some(86),
    identified := Some(true),
    quality := Some(20),
    properties := Some([ItemProperty("Armour", [("500", 0)], 0)]),
    frameType := Some(3),
    implicitMods := Some([Mod(text := "Has no Sockets")]),
    explicitMods := Some(KaomsHeartMods),
    flavourText := Some("The warrior who possesses a heart of fire shall make his foes into ash."))

  const Gear2 := Item(
    id := "gear2",
    name := "Pain Song",
    typeLine := "Imbued Wand",
    icon := "WandInt13.png",
    w := 1, h := 3, x := 3, y := 1,
    ilvl := Some(75),
    identified := Some(false),
    quality := Some(12),
    properties := Some([
      ItemProperty("Wand", [("Requires Level 60, 188 Int", 0)], 0, Some(1)),
      ItemProperty("Physical Damage", [("30-55", 1)], 0),
      ItemProperty("Critical Strike Chance", [("7.50%", 0)], 0),
      ItemProperty("Attacks per Second", [("1.50", 1)], 0)
    ]),
    frameType := Some(2),
    explicitMods := Some([
      Mod(text := "to maximum Mana", numericValue := Some(Single(72))),
      Mod(text := "increased Spell Damage", numericValue := Some(Single(25)), valueSuffix := Some("%")),
      Mod(text := "Cold Damage to Spells", numericValue := Some(Range(10, 20))),
      Mod(text := "to Global Critical Strike Multiplier", numericValue := Some(Single(15)), valueSuffix := Some("%"))
    ]))

  const Gem1 := Item(
    id := "gem1",
    name := "Vaal Arc",
    typeLine := "Arc",
    icon := "VaalArc.png",
    w := 1, h := 1, x := 0, y := 4,
    frameType := Some(4),
    properties := Some([
      ItemProperty("Level", [("20", 1)], 0),
      ItemProperty("Quality", [("+20%", 1)], 0, Some(6))
    ]))

  const Gear3 := Item(
    id := "gear3",
    name := "Linked Chainmail",
    typeLine := "Chainmail Vest",
    icon := "BodyArmourStrDex3.png",
    w := 2, h := 3, x := 2, y := 0,
    ilvl := Some(68),
    identified := Some(true),
    quality := Some(10),
    properties := Some([ItemProperty("Armour", [("150", 0)], 0)]),
    frameType := Some(0),
    sockets := Some([
      Socket(0, R, Some(S)),
      Socket(0, G, Some(D)),
      Socket(1, B, Some(I)),
      Socket(1, B, Some(I))
    ]))

  const Gear4Sockets := [
    Socket(0, R, Some(S)),
    Socket(0, G, Some(D)),
    Socket(0, B, Some(I)),
    Socket(0, W),
    Socket(1, B, Some(I)),
    Socket(1, R, Some(S))
  ]

  const Gear4 := Item(
    id := "gear4",
    name := "Socketed Greathelm",
    typeLine := "Ezomyte Burgonet",
    icon := "HelmetStr14.png",
    w := 2, h := 2, x := 4, y := 0,
    identified := Some(true),
    influence := Some(Shaper),
    properties := Some([ItemProperty("Armour", [("220", 0)], 0)]),
    frameType := Some(1),
    sockets := Some(Gear4Sockets))

  const Gear5 := Item(
    id := "gear5",
    name := "Green Tri-Gloves",
    typeLine := "Wrapped Mitts",
    icon := "GlovesInt7A.png",
    w := 2, h := 2, x := 4, y := 2,
    identified := Some(true),
    influence := Some(Elder),
    properties := Some([ItemProperty("Evasion Rating", [("180", 0)], 0)]),
    frameType := Some(0),
    sockets := Some([
      Socket(0, G, Some(D)),
      Socket(0, G, Some(D)),
      Socket(0, G, Some(D))
    ]))

  const Gear6 := Item(
    id := "gear6",
    name := "Aegis of the Guardian",
    typeLine := "Archon Kite Shield",
    icon := "ShieldInt11.png",
    w := 2, h := 2, x := 0, y := 5,
    ilvl := Some(78),
    identified := Some(true),
    quality := Some(15),
    properties := Some([
      ItemProperty("Chance to Block", [("25%", 0)], 0),
      ItemProperty("Energy Shield", [("120", 1)], 0)
    ]),
    frameType := Some(2),
    explicitMods := Some([
      Mod(text := "to maximum Energy Shield", numericValue := Some(Single(70))),
      Mod(text := "to maximum Mana", numericValue := Some(Single(45))),
      Mod(text := "increased Spell Damage", numericValue := Some(Single(10)), valueSuffix := Some("%"))
    ]),
    requirements := Some([
      ItemProperty("Level", [("60", 0)], 0),
      ItemProperty("Int", [("150", 0)], 0)
    ]))

  const Flask1 := Item(
    id := "flask1",
    name := "Chemist's Granite Flask of Staunching",
    typeLine := "Granite Flask",
    icon := "FlaskGranite.png",
    w := 1, h := 2, x := 6, y := 0,
    ilvl := Some(60),
    identified := Some(true),
    quality := Some(15),
    frameType := Some(1),
    utilityMods := Some([
      Mod(text := "Armour during Flask Effect", numericValue := Some(Single(1500))),
      // The stored value here is 5.5, which an integer payload cannot hold.
      Mod(text := "Seconds Flask Duration")
    ]),
    explicitMods := Some([
      Mod(text := "increased Charge Recovery", numericValue := Some(Single(24)), valueSuffix := Some("%")),
      Mod(text := "Consumes 20 of 60 Charges"),
      Mod(text := "Immunity to Bleeding and Corrupted Blood during Flask effect")
    ]),
    requirements := Some([ItemProperty("Level", [("40", 0)], 0)]),
    descrText := Some("Right click to drink. Can be used 3 more times."))

  const Map1 := Item(
    id := "map1",
    name := "Corrupted Strand Map of Haunting",
    typeLine := "Strand Map",
    icon := "Strand.png",
    w := 1, h := 1, x := 7, y := 0,
    ilvl := Some(78),
    identified := Some(true),
    corrupted := Some(true),
    quality := Some(12),
    frameType := Some(2),
    properties := Some([
      ItemProperty("Map Tier", [("11", 0)], 0),
      ItemProperty("Item Quantity", [("+75%", 1)], 0),
      ItemProperty("Item Rarity", [("+40%", 1)], 0),
      ItemProperty("Monster Pack Size", [("+25%", 1)], 0)
    ]),
    explicitMods := Some([
      Mod(text := "Players are Cursed with Vulnerability"),
      Mod(text := "extra Physical Damage as Lightning dealt by Monsters", numericValue := Some(Single(90)), valueSuffix := Some("%")),
      Mod(text := "additional Rogue Exiles in Area", numericValue := Some(Single(2)))
    ]),
    descrText := Some("Travel to this Map by using it in a personal Map Device. Maps can only be used once."))

  const Jewel1 := Item(
    id := "jewel1",
    name := "Hypnotic Eye",
    typeLine := "Viridian Jewel",
    icon := "NewGenericJasper.png",
    w := 1, h := 1, x := 6, y := 2,
    ilvl := Some(80),
    identified := Some(true),
    frameType := Some(2),
    explicitMods := Some([
      Mod(text := "increased maximum Life", numericValue := Some(Single(7)), valueSuffix := Some("%")),
      Mod(text := "increased Projectile Damage", numericValue := Some(Single(12)), valueSuffix := Some("%")),
      Mod(text := "to Strength and Dexterity", numericValue := Some(Single(10)))
    ]),
    descrText := Some("Place into an allocated Jewel Socket on the Passive Skill Tree. Right click to remove from the Socket."))

  const ClusterJewelImplicits := [
    Mod(text := "Adds 12 Passive Skills", modType := Some(Enchant), numericValue := Some(Single(12))),
    Mod(text := "Added Small Passive Skills grant: Minions deal increased Damage", modType := Some(Enchant), numericValue := Some(Single(10)), valueSuffix := Some("%")),
    Mod(text := "Added Small Passive Skills also grant: to Strength", modType := Some(Enchant), numericValue := Some(Single(3)))
  ]

  const ClusterJewel1 := Item(
    id := "clusterJewel1",
    name := "Gale Song",
    typeLine := "Large Cluster Jewel",
    icon := "NewClusterJewelLarge.png",
    w := 1, h := 1, x := 7, y := 2,
    ilvl := Some(84),
    identified := Some(true),
    frameType := Some(2),
    implicitMods := Some(ClusterJewelImplicits),
    explicitMods := Some([
      Mod(text := "1 Added Passive Skill is Renewal"),
      Mod(text := "1 Added Passive Skill is Rotten Claws"),
      Mod(text := "increased Minion Attack Speed", numericValue := Some(Single(5)), valueSuffix := Some("%"))
    ]),
    descrText := Some("Place into an allocated Large Jewel Socket on the Passive Skill Tree. Right click to remove from the Socket."))

  const Tab2 := StashTab(
    id := "tab2",
    name := "⚔️ Gear",
    tabType := "PremiumStash",
    index := 1,
    items := [Gear1, Gear2, Gem1, Gear3, Gear4, Gear5, Gear6, Flask1, Map1, Jewel1, ClusterJewel1])

  // ---------------------------------------------------------------------
  // Tab 3: divination cards
  // ---------------------------------------------------------------------

  const Div1 := Item(
    id := "div1",
    name := "The Doctor",
    typeLine := "The Doctor",
    icon := "TheDoctor.png",
    w := 1, h := 1, x := 0, y := 0,
    stackSize := Some(3),
    maxStackSize := Some(8),
    frameType := Some(6),
    explicitMods := Some([Mod(text := "<uniqueitem>{Headhunter}")]),
    flavourText := Some("They say he can count the number of hairs on your head from a hundred paces. They say he can cure any illness with a touch. They say a lot of things."))

  const Tab3 := StashTab(
    id := "tab3",
    name := "💎 Div Cards",
    tabType := "DivinationCardStash",
    index := 2,
    items := [Div1])

  /** All tabs, in display order. */
  const MockStashTabs: seq<StashTab> := [Tab1, Tab2, Tab3]
}

=== FILE: catalog_facts.dfy ===
/**
 * Facts about the text of the shipped catalog that need no catalog entry:
 * which type lines and names mention a search or category word, and that
 * the item ids are pairwise different.
 */
module CatalogText {

  import opened Strings

  /** `s` holds `t[k]` in neither case, so its lower-cased form does not contain `t`. */
  lemma LowerLacks(s: string, t: string, k: int)
    requires 0 <= k < |t| && IsLower(t[k]) && t[k] !in s && UpperChar(t[k]) !in s
    ensures !Contains(Lower(s), t)
  {
    LowerMissing(s, t[k]);
    ContainsNeedsEveryChar(Lower(s), t, k);
  }

  /** A type line that mentions neither category word. */
  predicate Plain(typeLine: string) {
    !Contains(Lower(typeLine), "flask") && !Contains(Lower(typeLine), "map")
  }

  /** A type line lacking, in both cases, one letter of "flask" and one letter of "map" is plain. */
  lemma PlainBy(typeLine: string, f: int, m: int)
    requires 0 <= f < 5 && "flask"[f] !in typeLine && UpperChar("flask"[f]) !in typeLine
    requires 0 <= m < 3 && "map"[m] !in typeLine && UpperChar("map"[m]) !in typeLine
    ensures Plain(typeLine)
  {
    LowerLacks(typeLine, "flask", f);
    LowerLacks(typeLine, "map", m);
  }

  /** The armour type lines mention neither category word. */
  lemma PlainArmourLines()
    ensures Plain("Glorious Plate") && Plain("Chainmail Vest") && Plain("Ezomyte Burgonet")
  {
    PlainBy("Glorious Plate", 0, 0);
    PlainBy("Chainmail Vest", 0, 2);
    PlainBy("Ezomyte Burgonet", 0, 2);
  }

  /** The wand, shield and gem type lines mention neither category word. */
  lemma PlainWeaponLines()
    ensures Plain("Imbued Wand") && Plain("Archon Kite Shield") && Plain("Arc")
  {
    PlainBy("Imbued Wand", 0, 2);
    PlainBy("Archon Kite Shield", 0, 2);
    PlainBy("Arc", 0, 0);
  }

  /** The jewel type lines mention neither category word. */
  lemma PlainJewelLines()
    ensures Plain("Viridian Jewel") && Plain("Large Cluster Jewel")
  {
    PlainBy("Viridian Jewel", 0, 2);
    PlainBy("Large Cluster Jewel", 0, 2);
  }

  /** "wrapped mitts" has every letter of "map", but its one `m` is followed by `i`. */
  lemma WrappedMittsIsPlain()
    ensures Plain("Wrapped Mitts")
  {
    LowerLacks("Wrapped Mitts", "flask", 0);
    var l := Lower("Wrapped Mitts");
    assert l == "wrapped mitts";
    forall i | 0 <= i <= |l|
      ensures !OccursAt(l, "map", i)
    {
      if i + 3 <= |l| {
        assert l[i..i + 3][0] == l[i] && l[i..i + 3][1] == l[i + 1];
      }
    }
  }

  /** "Granite Flask" mentions "flask" and not "map". */
  lemma GraniteFlaskIsFlask()
    ensures Contains(Lower("Granite Flask"), "flask")
    ensures !Contains(Lower("Granite Flask"), "map")
  {
    assert OccursAt(Lower("Granite Flask"), "flask", 8);
    LowerLacks("Granite Flask", "map", 2);
  }

  /** "Strand Map" mentions "map" and not "flask". */
  lemma StrandMapIsMap()
    ensures Contains(Lower("Strand Map"), "map")
    ensures !Contains(Lower("Strand Map"), "flask")
  {
    assert OccursAt(Lower("Strand Map"), "map", 7);
    LowerLacks("Strand Map", "flask", 0);
  }

  /** The decimal forms of the modifier values the catalog's comments spell out. */
  lemma ModValueTexts()
    ensures IntToString(500) == "500" && IntToString(25) == "25" && IntToString(12) == "12"
    ensures IntToString(40) == "40" && IntToString(50) == "50"
  {
  }

  // The pieces of each modifier line put together.

  lemma LifeLineText()
    ensures "" + "+" + "500" + "" + " " + "to maximum Life" == "+500 to maximum Life"
  {
  }

  lemma FireLineText()
    ensures "" + "(" + "40" + "-" + "50" + ")" + "%" + " " + "increased Fire Damage" == "(40-50)% increased Fire Damage"
  {
  }

  lemma StrengthLineText()
    ensures "(Crafted) " + "+" + "25" + "" + " " + "to Strength" == "(Crafted) +25 to Strength"
  {
  }

  lemma EnchantLineText()
    ensures "(Enchant) " + "+" + "12" + "" + " " + "Adds 12 Passive Skills" == "(Enchant) +12 Adds 12 Passive Skills"
  {
  }

  lemma SpellDamageLineText()
    ensures "" + "25" + "%" + " " + "increased Spell Damage" == "25% increased Spell Damage"
  {
  }

  /** Of the three currency names only "Exalted Orb" mentions "exalted". */
  lemma CurrencyNamesAndExalted()
    ensures Lower("exalted") == "exalted"
    ensures Contains(Lower("Exalted Orb"), "exalted")
    ensures !Contains(Lower("Chaos Orb"), "exalted")
    ensures !Contains(Lower("Orb of Alchemy"), "exalted")
  {
    assert OccursAt(Lower("Exalted Orb"), "exalted", 0);
    LowerLacks("Chaos Orb", "exalted", 1);
    LowerLacks("Orb of Alchemy", "exalted", 1);
  }

  predicate Distinct(s: seq<string>) {
    forall i, j :: 0 <= i < j < |s| ==> s[i] != s[j]
  }

  /** The item ids of the catalog, tab by tab. */
  const ItemIds := ["curr1", "curr2", "curr3",
    "gear1", "gear2", "gem1", "gear3", "gear4", "gear5", "gear6", "flask1", "map1", "jewel1", "clusterJewel1",
    "div1"]

  /** Length, first and last character: enough to tell the catalog's ids apart. */
  function Signature(s: string): (int, char, char) {
    if |s| == 0 then (0, ' ', ' ') else (|s|, s[0], s[|s| - 1])
  }

  lemma ItemIdsAreDistinct()
    ensures Distinct(ItemIds)
  {
    var sigs := [(5, 'c', '1'), (5, 'c', '2'), (5, 'c', '3'),
      (5, 'g', '1'), (5, 'g', '2'), (4, 'g', '1'), (5, 'g', '3'), (5, 'g', '4'), (5, 'g', '5'), (5, 'g', '6'),
      (6, 'f', '1'), (4, 'm', '1'), (6, 'j', '1'), (13, 'c', '1'), (4, 'd', '1')];
    assert forall i :: 0 <= i < |ItemIds| ==> Signature(ItemIds[i]) == sigs[i];
  }
}

/**
 * Facts about the shipped catalog, each proved by computation: geometry,
 * tab kinds, stack caps, frame types, identifiers, footprint overlaps, and
 * what the filters, the modifier formatter and the socket grouping produce
 * on it.
 */
module CatalogFacts {

  import opened Wrappers
  import opened Strings
  import opened Seqs
  import opened StashTypes
  import opened Catalog
  import opened StashFilter
  import opened TooltipText
  import opened ItemCard
  import opened ItemGrid
  import opened Footprint
  import opened CatalogText
  import opened StashPage

  // ---------------------------------------------------------------------
  // Geometry, tab kinds, stacks and frame types
  // ---------------------------------------------------------------------

  /** What every catalog item satisfies: a footprint inside 8 columns, a documented frame type, a stack within its cap. */
  predicate WellFormed(item: Item) {
    && FitsColumns(item, 8)
    && item.frameType.Some? && 0 <= item.frameType.value <= 6
    && (item.stackSize.Some? && item.maxStackSize.Some? ==> item.stackSize.value <= item.maxStackSize.value)
  }

  lemma CurrencyTabWellFormed()
    ensures forall i :: 0 <= i < |Tab1.items| ==> WellFormed(Tab1.items[i])
  {
  }

  lemma GearTabWellFormed()
    ensures forall i :: 0 <= i < |Tab2.items| ==> WellFormed(Tab2.items[i])
  {
  }

  lemma DivinationTabWellFormed()
    ensures forall i :: 0 <= i < |Tab3.items| ==> WellFormed(Tab3.items[i])
  {
  }

  /**
   * Every item has a footprint of at least one cell at a non-negative
   * position, within 12 columns (no tab is a quad tab) and in fact within
   * columns 0..7, a frame type in 0..6, and a stack no larger than its cap;
   * map1 and clusterJewel1 reach column 7.
   */
  lemma CatalogGeometry()
    ensures forall t :: t in MockStashTabs ==> ColumnCount(t.tabType) == 12
    ensures forall t, item :: t in MockStashTabs && item in t.items ==>
      WellFormed(item) && FitsColumns(item, ColumnCount(t.tabType))
    ensures Map1.x + Map1.w == 8 && ClusterJewel1.x + ClusterJewel1.w == 8
  {
    CurrencyTabWellFormed();
    GearTabWellFormed();
    DivinationTabWellFormed();
    forall t, item | t in MockStashTabs && item in t.items
      ensures WellFormed(item) && FitsColumns(item, ColumnCount(t.tabType))
    {
      var i :| 0 <= i < |t.items| && t.items[i] == item;
    }
  }

  /** Tab ids are distinct and each tab's index is its position. */
  lemma TabsIndexed()
    ensures forall i :: 0 <= i < |MockStashTabs| ==> MockStashTabs[i].index == i
    ensures forall i, j :: 0 <= i < j < |MockStashTabs| ==> MockStashTabs[i].id != MockStashTabs[j].id
  {
    assert forall i :: 0 <= i < |MockStashTabs| ==> MockStashTabs[i].id[3] == "123"[i];
  }

  /** Every item of every tab, tab by tab. */
  function AllItems(tabs: seq<StashTab>): (r: seq<Item>)
    ensures forall t, item :: t in tabs && item in t.items ==> item in r
  {
    if |tabs| == 0 then [] else tabs[0].items + AllItems(tabs[1..])
  }

  lemma AllItemsOfThree(a: StashTab, b: StashTab, c: StashTab)
    ensures AllItems([a, b, c]) == a.items + b.items + c.items
  {
    assert [a, b, c][1..] == [b, c];
    assert [b, c][1..] == [c];
    assert [c][1..] == [];
    assert AllItems([c]) == c.items;
    assert AllItems([b, c]) == b.items + c.items;
  }

  /** The ids of each tab's items, in order. */
  lemma TabIds()
    ensures forall i :: 0 <= i < |Tab1.items| ==> Tab1.items[i].id == ItemIds[i]
    ensures forall i :: 0 <= i < |Tab2.items| ==> Tab2.items[i].id == ItemIds[3 + i]
    ensures forall i :: 0 <= i < |Tab3.items| ==> Tab3.items[i].id == ItemIds[14 + i]
  {
  }

  /** Item ids are distinct across the whole catalog. */
  lemma ItemIdsDistinct()
    ensures var all := AllItems(MockStashTabs);
      |all| == 15 && forall i, j :: 0 <= i < j < |all| ==> all[i].id != all[j].id
  {
    var all := AllItems(MockStashTabs);
    AllItemsOfThree(Tab1, Tab2, Tab3);
    TabIds();
    assert |Tab1.items| == 3 && |Tab2.items| == 11 && |Tab3.items| == 1;
    forall i | 0 <= i < |all|
      ensures all[i].id == ItemIds[i]
    {
      if i < 3 {
        assert all[i] == Tab1.items[i];
      } else if i < 14 {
        assert all[i] == Tab2.items[i - 3];
      } else {
        assert all[i] == Tab3.items[i - 14];
      }
    }
    ItemIdsAreDistinct();
  }

  // ---------------------------------------------------------------------
  // Footprints
  // ---------------------------------------------------------------------

  /** The currency and divination tabs have no overlapping footprints. */
  lemma Tab1AndTab3Disjoint()
    ensures PairwiseDisjoint(Tab1.items)
    ensures PairwiseDisjoint(Tab3.items)
  {
  }

  /** In the gear tab, gear2 and gear3 overlap: both occupy cells (3, 1) and (3, 2). */
  lemma Tab2Overlaps()
    ensures Tab2.items[1] == Gear2 && Tab2.items[3] == Gear3
    ensures Overlap(Gear2, Gear3)
    ensures Occupies(Gear2, 3, 1) && Occupies(Gear3, 3, 1)
    ensures Occupies(Gear2, 3, 2) && Occupies(Gear3, 3, 2)
    ensures !PairwiseDisjoint(Tab2.items)
  {
  }

  /** Kaom's Heart, at (0, 0) and 2 by 3, is placed from line 1 and spans 2 columns and 3 rows. */
  lemma KaomsHeartPlacement()
    ensures GridPlacement(Gear1) == GridArea(1, 1, 2, 3)
  {
  }

  // ---------------------------------------------------------------------
  // Modifier text
  // ---------------------------------------------------------------------

  /** The line of a modifier with a positive bonus value: prefix, `+`, digits, suffix, a space, the text. */
  lemma BonusLine(mod: Mod, digits: string)
    requires mod.numericValue.Some? && mod.numericValue.value.Single? && mod.numericValue.value.value > 0
    requires IsBonusText(mod.text) && IntToString(mod.numericValue.value.value) == digits
    ensures ModText(mod) == TypePrefix(mod.modType) + "+" + digits + mod.valueSuffix.GetOr("") + " " + mod.text
  {
    var shown := "+" + digits + mod.valueSuffix.GetOr("");
    assert NumericDisplay(mod) == shown;
    LineAssoc(TypePrefix(mod.modType), "+" + digits, mod.valueSuffix.GetOr(""), mod.text);
  }

  /** The line of any other single value: prefix, the digits as they are, suffix, a space, the text. */
  lemma PlainLine(mod: Mod, digits: string)
    requires mod.numericValue.Some? && mod.numericValue.value.Single?
    requires !(mod.numericValue.value.value > 0 && IsBonusText(mod.text))
    requires IntToString(mod.numericValue.value.value) == digits
    ensures ModText(mod) == TypePrefix(mod.modType) + digits + mod.valueSuffix.GetOr("") + " " + mod.text
  {
    var shown := digits + mod.valueSuffix.GetOr("");
    assert NumericDisplay(mod) == shown;
    LineAssoc(TypePrefix(mod.modType), digits, mod.valueSuffix.GetOr(""), mod.text);
  }

  lemma LineAssoc(pre: string, value: string, suffix: string, text: string)
    ensures pre + ((value + suffix) + " " + text) == pre + value + suffix + " " + text
  {
  }

  /** The line of a modifier with a range value: prefix, `(lo-hi)`, suffix, a space, the text. */
  lemma RangeLine(mod: Mod, lo: string, hi: string)
    requires mod.numericValue.Some? && mod.numericValue.value.Range?
    requires IntToString(mod.numericValue.value.min) == lo && IntToString(mod.numericValue.value.max) == hi
    ensures ModText(mod) == TypePrefix(mod.modType) + "(" + lo + "-" + hi + ")" + mod.valueSuffix.GetOr("") + " " + mod.text
  {
    var shown := "(" + lo + "-" + hi + ")" + mod.valueSuffix.GetOr("");
    assert NumericDisplay(mod) == shown;
    RangeLineAssoc(TypePrefix(mod.modType), lo, hi, mod.valueSuffix.GetOr(""), mod.text);
  }

  lemma RangeLineAssoc(pre: string, lo: string, hi: string, suffix: string, text: string)
    ensures pre + (("(" + lo + "-" + hi + ")" + suffix) + " " + text)
      == pre + "(" + lo + "-" + hi + ")" + suffix + " " + text
  {
  }

  lemma KaomsHeartLife()
    ensures ModText(KaomsHeartMods[0]) == "+500 to maximum Life"
  {
    ModValueTexts();
    BonusLine(KaomsHeartMods[0], "500");
    LifeLineText();
  }

  lemma KaomsHeartFire()
    ensures ModText(KaomsHeartMods[1]) == "(40-50)% increased Fire Damage"
  {
    ModValueTexts();
    RangeLine(KaomsHeartMods[1], "40", "50");
    FireLineText();
  }

  lemma SpellDamageIsNoBonus()
    ensures !IsBonusText("increased Spell Damage")
  {
    assert "increased Spell Damage"[..3][0] != "to "[0];
    assert "increased Spell Damage"[..5][0] != "Adds "[0];
  }

  /** A percentage that is not a bonus keeps its bare number and its suffix: "25% increased Spell Damage". */
  lemma Gear2SpellDamageLine()
    ensures ModText(Gear2.explicitMods.value[1]) == "25% increased Spell Damage"
  {
    ModValueTexts();
    SpellDamageIsNoBonus();
    PlainLine(Gear2.explicitMods.value[1], "25");
    SpellDamageLineText();
  }

  lemma KaomsHeartStrength()
    ensures ModText(KaomsHeartMods[2]) == "(Crafted) +25 to Strength"
  {
    ModValueTexts();
    BonusLine(KaomsHeartMods[2], "25");
    StrengthLineText();
  }

  /** Kaom's Heart's explicit modifiers render as the catalog's comments say. */
  lemma KaomsHeartModLines()
    ensures var lines := FormatMods(Gear1.explicitMods, None);
      && lines.Some? && |lines.value| == 3
      && lines.value[0].text == "+500 to maximum Life"
      && lines.value[1].text == "(40-50)% increased Fire Damage"
      && lines.value[2].text == "(Crafted) +25 to Strength"
  {
    KaomsHeartLife();
    KaomsHeartFire();
    KaomsHeartStrength();
  }

  /** The cluster jewel's first enchant shows its number twice: the value precedes a text that already holds it. */
  lemma ClusterJewelEnchantLine()
    ensures ModText(ClusterJewelImplicits[0]) == "(Enchant) +12 Adds 12 Passive Skills"
  {
    ModValueTexts();
    BonusLine(ClusterJewelImplicits[0], "12");
    EnchantLineText();
  }

  // ---------------------------------------------------------------------
  // Sockets
  // ---------------------------------------------------------------------

  /** Six sockets whose first four are linked in group 0 and last two in group 1 split four and two. */
  lemma FourAndTwo(s: seq<Socket>)
    requires |s| == 6
    requires s[0].group == 0 && s[1].group == 0 && s[2].group == 0 && s[3].group == 0
    requires s[4].group == 1 && s[5].group == 1
    ensures SocketsInGroup(s, 0) == s[..4]
    ensures SocketsInGroup(s, 1) == s[4..]
  {
    FilterKeepsPrefix(s, SameGroup(0), 4);
    FilterKeepsSuffix(s, SameGroup(1), 4);
  }

  /** Socketed Greathelm's sockets form a group of four and a group of two. */
  lemma GreathelmSocketGroups()
    ensures SocketsInGroup(Gear4Sockets, 0) == Gear4Sockets[..4]
    ensures SocketsInGroup(Gear4Sockets, 1) == Gear4Sockets[4..]
  {
    FourAndTwo(Gear4Sockets);
  }

  // ---------------------------------------------------------------------
  // Filter scenarios
  // ---------------------------------------------------------------------

  /** Searching the currency tab for "exalted" finds only the Exalted Orb. */
  lemma SearchExaltedScenario()
    ensures FilteredItems(Some(Tab1), "exalted", "all", "all") == [Curr1]
  {
    CurrencyNamesAndExalted();
    FilterSelectsOne(Tab1.items, SearchTest("exalted"), 0);
  }

  /** The magic rarity on the gear tab keeps the helmet and the flask, in that order. */
  lemma MagicRarityScenario()
    ensures FilteredItems(Some(Tab2), "", "magic", "all") == [Gear4, Flask1]
  {
    FilterSelectsTwo(Tab2.items, RarityTest("magic"), 4, 7);
  }

  /** Which gear-tab type lines mention "flask" or "map": only the flask's and the map's. */
  lemma GearTypeLines()
    ensures forall j :: 0 <= j < |Tab2.items| && j != 7 ==> !Contains(Lower(Tab2.items[j].typeLine), "flask")
    ensures forall j :: 0 <= j < |Tab2.items| && j != 8 ==> !Contains(Lower(Tab2.items[j].typeLine), "map")
    ensures Contains(Lower(Tab2.items[7].typeLine), "flask") && Contains(Lower(Tab2.items[8].typeLine), "map")
  {
    PlainArmourLines();
    PlainWeaponLines();
    PlainJewelLines();
    WrappedMittsIsPlain();
    GraniteFlaskIsFlask();
    StrandMapIsMap();
  }

  /**
   * With no search term and every rarity, a "flask" or "map" category keeps
   * exactly the equipment-like items whose type line mentions the word; when
   * only item `k` mentions it, that item alone is shown.
   */
  lemma TypeLineCategorySelectsOne(tab: StashTab, word: string, k: nat)
    requires word == "flask" || word == "map"
    requires k < |tab.items| && EquipmentLike(tab.items[k]) && Contains(Lower(tab.items[k].typeLine), word)
    requires forall j :: 0 <= j < |tab.items| && j != k ==> !Contains(Lower(tab.items[j].typeLine), word)
    ensures FilteredItems(Some(tab), "", "all", word) == [tab.items[k]]
  {
    FilterSelectsOne(tab.items, CategoryTest(word), k);
  }

  /** The flask category on the gear tab keeps only the flask. */
  lemma FlaskCategoryScenario()
    ensures FilteredItems(Some(Tab2), "", "all", "flask") == [Flask1]
  {
    GearTypeLines();
    TypeLineCategorySelectsOne(Tab2, "flask", 7);
  }

  /** The map category on the gear tab keeps only the map. */
  lemma MapCategoryScenario()
    ensures FilteredItems(Some(Tab2), "", "all", "map") == [Map1]
  {
    GearTypeLines();
    TypeLineCategorySelectsOne(Tab2, "map", 8);
  }

  /**
   * The page opens on the currency tab with no search and both selectors on
   * "all": a 12-column grid of that tab's three cards, in catalog order.
   */
  lemma OpeningPage()
    ensures InitialTab(MockStashTabs) == Some(Tab1)
    ensures StashView(InitialTab(MockStashTabs), "", "all", "all") == Grid(12, [MakeCard(Curr1), MakeCard(Curr2), MakeCard(Curr3)])
  {
  }
}

=== FILE: footprint.dfy ===
/**
 * A data checker over stored footprints. The viewer itself validates
 * nothing (cards are placed from their own fields alone); these definitions
 * state the geometric invariants a catalog is expected to satisfy, so that
 * a given catalog can be checked against them.
 */
module Footprint {

  import opened Wrappers
  import opened StashTypes
  import opened ItemCard

  /** Size at least one cell, position not negative, right edge within `columns`. */
  predicate FitsColumns(item: Item, columns: int) {
    item.w >= 1 && item.h >= 1 && item.x >= 0 && item.y >= 0 && item.x + item.w <= columns
  }

  /** The footprints' column intervals and row intervals both intersect. */
  predicate Overlap(a: Item, b: Item) {
    a.x < b.x + b.w && b.x < a.x + a.w && a.y < b.y + b.h && b.y < a.y + a.h
  }

  /** For non-empty footprints, overlapping is sharing a cell. */
  lemma OverlapIffSharedCell(a: Item, b: Item)
    requires a.w >= 1 && a.h >= 1 && b.w >= 1 && b.h >= 1
    ensures Overlap(a, b) <==> exists col, row :: Occupies(a, col, row) && Occupies(b, col, row)
  {
    if Overlap(a, b) {
      var col := if a.x < b.x then b.x else a.x;
      var row := if a.y < b.y then b.y else a.y;
      assert Occupies(a, col, row) && Occupies(b, col, row);
    }
  }

  /** No two items of the sequence overlap. */
  predicate PairwiseDisjoint(items: seq<Item>) {
    forall i, j :: 0 <= i < j < |items| ==> !Overlap(items[i], items[j])
  }

  /** The first overlapping pair `(i, j)`, `i < j`, in row-major order of pairs; `None` if there is none. */
  method FindOverlap(items: seq<Item>) returns (r: Option<(nat, nat)>)
    ensures r.None? <==> PairwiseDisjoint(items)
    ensures r.Some? ==> r.value.0 < r.value.1 < |items| && Overlap(items[r.value.0], items[r.value.1])
    ensures r.Some? ==> forall i, j :: 0 <= i < j < |items| && (i < r.value.0 || (i == r.value.0 && j < r.value.1)) ==>
      !Overlap(items[i], items[j])
  {
    var i := 0;
    while i < |items|
      invariant 0 <= i <= |items|
      invariant forall i', j :: 0 <= i' < i && i' < j < |items| ==> !Overlap(items[i'], items[j])
    {
      var j := i + 1;
      while j < |items|
        invariant i + 1 <= j <= |items|
        invariant forall j' :: i < j' < j ==> !Overlap(items[i], items[j'])
      {
        if Overlap(items[i], items[j]) {
          return Some((i, j));
        }
        j := j + 1;
      }
      i := i + 1;
    }
    return None;
  }
}

=== FILE: item_card.dfy ===
/**
 * What one grid cell shows for an item (src/components/stash/ItemCard.tsx):
 * its grid area, image box, hover title, stack badge and border colour.
 * Placement reads only the item's own fields; no bounds or overlap check is
 * made here.
 */
module ItemCard {

  import opened Wrappers
  import opened Strings
  import opened StashTypes

  /** Pixels per footprint cell of the item image. */
  const CellPixels := 40

  /** A CSS grid area: 1-based start lines and spans. */
  datatype GridArea = GridArea(columnStart: int, rowStart: int, columnSpan: int, rowSpan: int)

  /** The 0-based cell `(col, row)` lies in the item's stored footprint. */
  predicate Occupies(item: Item, col: int, row: int) {
    item.x <= col < item.x + item.w && item.y <= row < item.y + item.h
  }

  /** The grid track pair `(column, row)`, numbered from 1, lies in the area. */
  predicate Covers(area: GridArea, column: int, row: int) {
    && area.columnStart <= column < area.columnStart + area.columnSpan
    && area.rowStart <= row < area.rowStart + area.rowSpan
  }

  /** The grid area of an item: start lines one past its position, spans equal to its size. */
  function GridPlacement(item: Item): (area: GridArea)
    ensures forall col, row :: Covers(area, col + 1, row + 1) <==> Occupies(item, col, row)
    ensures area.columnSpan == item.w && area.rowSpan == item.h
  {
    GridArea(item.x + 1, item.y + 1, item.w, item.h)
  }

  /** The area is determined by the footprint alone: items with equal position and size share it. */
  lemma PlacementDependsOnFootprint(a: Item, b: Item)
    ensures GridPlacement(a) == GridPlacement(b) <==> a.x == b.x && a.y == b.y && a.w == b.w && a.h == b.h
  {
  }

  datatype ImageBox = ImageBox(width: int, height: int)

  /**
   * The image is `CellPixels` per grid track the card spans, in each
   * direction, so it keeps the footprint's aspect ratio.
   */
  function ImageSize(item: Item): (box: ImageBox)
    ensures box.width == CellPixels * GridPlacement(item).columnSpan
    ensures box.height == CellPixels * GridPlacement(item).rowSpan
    ensures box.width * item.h == box.height * item.w
  {
    ImageBox(item.w * CellPixels, item.h * CellPixels)
  }

  /** The `aspectRatio` style, "w / h". */
  function AspectRatio(item: Item): string {
    IntToString(item.w) + " / " + IntToString(item.h)
  }

  /** Reads "w / h": the width up to the first space, then " / ", then the height. */
  function ParseAspectRatio(s: string): Option<(int, int)> {
    match IndexOf(s, ' ')
    case None => None
    case Some(i) =>
      if i + 3 <= |s| && s[i..i + 3] == " / " then
        match (ParseInt(s[..i]), ParseInt(s[i + 3..]))
        case (Some(w), Some(h)) => Some((w, h))
        case _ => None
      else None
  }

  /** The aspect ratio reads back as the item's width and height. */
  lemma AspectRatioRoundTrip(item: Item)
    ensures ParseAspectRatio(AspectRatio(item)) == Some((item.w, item.h))
  {
    var a := IntToString(item.w);
    var b := IntToString(item.h);
    var r := a + " / " + b;
    forall j | 0 <= j < |a|
      ensures r[j] != ' '
    {
      if j > 0 {
        assert a[j] == a[1..][j - 1];
      }
    }
    IndexOfFirst(r, ' ', |a|);
    assert r[..|a|] == a;
    assert r[|a| + 3..] == b;
    ParseIntToString(item.w);
    ParseIntToString(item.h);
  }

  /** `stackSize` is present and not zero (the truthiness test of the component). */
  predicate HasStack(item: Item) {
    item.stackSize.Some? && item.stackSize.value != 0
  }

  /** The badge shows for a stack of more than one, or for any stack whose cap is one. */
  predicate ShowsStackBadge(item: Item) {
    HasStack(item) && (item.stackSize.value > 1 || item.maxStackSize == Some(1))
  }

  const StackPrefix := " (Stack: "

  /** The hover title: the name, followed by the stack size when there is one. */
  function Title(item: Item): (t: string)
    ensures |t| >= |item.name| && t[..|item.name|] == item.name
    ensures t == item.name <==> !HasStack(item)
  {
    item.name + (if HasStack(item) then StackPrefix + IntToString(item.stackSize.value) + ")" else "")
  }

  /** Reads the stack size back out of a title, given the item's name. */
  function StackFromTitle(title: string, name: string): Option<int> {
    var n := |name| + |StackPrefix|;
    if |title| > n && title[..|name|] == name && title[|name|..n] == StackPrefix && title[|title| - 1] == ')' then
      ParseInt(title[n..|title| - 1])
    else None
  }

  /** The title carries the stack size exactly when the item has a non-zero stack, and then that size. */
  lemma TitleRoundTrip(item: Item)
    ensures StackFromTitle(Title(item), item.name) == if HasStack(item) then item.stackSize else None
  {
    var t := Title(item);
    var n := |item.name| + |StackPrefix|;
    if HasStack(item) {
      var digits := IntToString(item.stackSize.value);
      assert t[..|item.name|] == item.name;
      assert t[|item.name|..n] == StackPrefix;
      assert t[n..|t| - 1] == digits;
      ParseIntToString(item.stackSize.value);
    } else {
      assert |t| == |item.name|;
    }
  }

  /** Whenever the badge shows, the title also names the stack size. */
  lemma BadgeImpliesTitledStack(item: Item)
    requires ShowsStackBadge(item)
    ensures StackFromTitle(Title(item), item.name) == item.stackSize
  {
    TitleRoundTrip(item);
  }

  const NeutralBorder := "border-neutral-600"

  /** `getBorderColorForFrameType`: a colour per frame type 1..6, neutral for everything else. */
  function BorderClass(frameType: Option<int>): (r: string)
    ensures r == NeutralBorder <==> !(frameType.Some? && 1 <= frameType.value <= 6)
  {
    if frameType == Some(1) then "border-blue-500"
    else if frameType == Some(2) then "border-yellow-400"
    else if frameType == Some(3) then "border-amber-600"
    else if frameType == Some(4) then "border-teal-500"
    else if frameType == Some(5) then "border-yellow-500"
    else if frameType == Some(6) then "border-yellow-300"
    else NeutralBorder
  }

  /**
   * The border lookup is total: frame types 1..6 get pairwise different
   * colours, and 0, no frame type and any other value get the neutral one.
   */
  lemma BorderClassesDistinct(a: Option<int>, b: Option<int>)
    ensures BorderClass(a) == NeutralBorder <==> !(a.Some? && 1 <= a.value <= 6)
    ensures a.Some? && 1 <= a.value <= 6 && b.Some? && 1 <= b.value <= 6 ==>
      (BorderClass(a) == BorderClass(b) <==> a == b)
  {
  }

  /** Everything the card shows that derives from the item. */
  datatype Card = Card(
    key: string,
    title: string,
    borderClass: string,
    area: GridArea,
    aspectRatio: string,
    image: ImageBox,
    stackBadge: Option<int>)

  function MakeCard(item: Item): (card: Card)
    ensures card.key == item.id
    ensures card.stackBadge.Some? <==> ShowsStackBadge(item)
  {
    Card(
      key := item.id,
      title := Title(item),
      borderClass := BorderClass(item.frameType),
      area := GridPlacement(item),
      aspectRatio := AspectRatio(item),
      image := ImageSize(item),
      stackBadge := if ShowsStackBadge(item) then item.stackSize else None)
  }
}

=== FILE: item_grid.dfy ===
/**
 * The stash grid (src/components/stash/ItemGrid.tsx): a prompt when no tab
 * is selected, a message when there is nothing to show, and otherwise one
 * card per item on a 12- or 24-column grid.
 */
module ItemGrid {

  import opened Wrappers
  import opened StashTypes
  import opened ItemCard

  const QuadStash := "QuadStash"

  /** What the grid area renders. */
  datatype GridView =
    | SelectTabPrompt
    | NoItemsMessage
    | Grid(columns: int, cards: seq<Card>)

  /** Quad tabs are 24 columns wide; every other kind is 12. */
  function ColumnCount(tabType: string): (n: int)
    ensures n == 24 || n == 12
    ensures n == 24 <==> tabType == QuadStash
  {
    if tabType == QuadStash then 24 else 12
  }

  /** The grid for `items` under a tab of kind `tabType` (absent when no tab is selected). */
  function RenderGrid(items: seq<Item>, tabType: Option<string>): (v: GridView)
    ensures v.SelectTabPrompt? <==> tabType.None? || tabType.value == ""
    ensures v.NoItemsMessage? <==> tabType.Some? && tabType.value != "" && |items| == 0
    ensures v.Grid? ==> v.columns == ColumnCount(tabType.value)
    ensures v.Grid? ==> |v.cards| == |items| && forall i :: 0 <= i < |items| ==> v.cards[i] == MakeCard(items[i])
  {
    if tabType.None? || tabType.value == "" then SelectTabPrompt
    else if |items| == 0 then NoItemsMessage
    else Grid(ColumnCount(tabType.value), seq(|items|, i requires 0 <= i < |items| => MakeCard(items[i])))
  }

  /** Without a tab kind the prompt shows, whatever the items. */
  lemma NoTabShowsPrompt(items: seq<Item>, items': seq<Item>)
    ensures RenderGrid(items, None) == RenderGrid(items', Some("")) == SelectTabPrompt
  {
  }

  /** Each card sits at the grid area of its own item, in input order, keyed by the item's id. */
  lemma CardsFollowItems(items: seq<Item>, tabType: string)
    requires tabType != "" && |items| > 0
    ensures var v := RenderGrid(items, Some(tabType));
      v.Grid? && forall i :: 0 <= i < |items| ==>
        v.cards[i].area == GridPlacement(items[i]) && v.cards[i].key == items[i].id
  {
  }
}

=== FILE: seqs.dfy ===
/**
 * `Array.prototype.filter` over immutable sequences, and what a stable filter
 * promises: the result is a subsequence of the input, in the input's order,
 * holding exactly the elements that pass.
 */
module Seqs {

  /** `s.filter(p)`: the elements of `s` that pass `p`, in their original order. */
  function Filter<T>(s: seq<T>, p: T -> bool): (r: seq<T>)
    ensures |r| <= |s|
    ensures forall i :: 0 <= i < |r| ==> r[i] in s && p(r[i])
    ensures forall i :: 0 <= i < |s| && p(s[i]) ==> s[i] in r
  {
    if |s| == 0 then [] else (if p(s[0]) then [s[0]] else []) + Filter(s[1..], p)
  }


  /**
   * `idx` embeds `a` into `b`: position `k` of `a` is read from position
   * `idx[k]` of `b`, and the positions strictly increase.
   */
  ghost predicate IsEmbedding<T>(idx: seq<nat>, a: seq<T>, b: seq<T>) {
    && |idx| == |a|
    && (forall k :: 0 <= k < |idx| ==> idx[k] < |b| && a[k] == b[idx[k]])
    && (forall k1, k2 :: 0 <= k1 < k2 < |idx| ==> idx[k1] < idx[k2])
  }

  /** `a` is obtained from `b` by deleting elements, without reordering the rest. */
  ghost predicate SubsequenceOf<T>(a: seq<T>, b: seq<T>) {
    exists idx: seq<nat> :: IsEmbedding(idx, a, b)
  }

  /** Filtering appends element by element. */
  lemma {:induction false} FilterAppend<T>(s: seq<T>, x: T, p: T -> bool)
    ensures Filter(s + [x], p) == Filter(s, p) + (if p(x) then [x] else [])
  {
    if |s| > 0 {
      assert (s + [x])[1..] == s[1..] + [x];
      FilterAppend(s[1..], x, p);
    }
  }

  /** Every index moved one place to the right. */
  function Shift(idx: seq<nat>): (r: seq<nat>)
    ensures |r| == |idx| && forall k :: 0 <= k < |idx| ==> r[k] == idx[k] + 1
  {
    seq(|idx|, k requires 0 <= k < |idx| => idx[k] + 1)
  }

  /** An embedding into the tail of `s` is, shifted, an embedding into `s` that avoids position 0. */
  lemma EmbeddingShift<T>(idx: seq<nat>, a: seq<T>, s: seq<T>)
    requires |s| > 0 && IsEmbedding(idx, a, s[1..])
    ensures IsEmbedding(Shift(idx), a, s)
    ensures forall k :: 0 <= k < |idx| ==> Shift(idx)[k] > 0
  {
    var r := Shift(idx);
    forall k | 0 <= k < |r|
      ensures r[k] < |s| && a[k] == s[r[k]]
    {
      assert a[k] == s[1..][idx[k]];
    }
  }

  /** Position 0 put in front of an embedding that avoids it embeds the sequence with `s[0]` in front. */
  lemma EmbeddingCons<T>(idx: seq<nat>, a: seq<T>, s: seq<T>)
    requires |s| > 0 && IsEmbedding(idx, a, s)
    requires forall k :: 0 <= k < |idx| ==> idx[k] > 0
    ensures IsEmbedding([0] + idx, [s[0]] + a, s)
  {
    var r := [0] + idx;
    forall k | 0 < k < |r|
      ensures r[k] < |s| && ([s[0]] + a)[k] == s[r[k]]
    {
      assert r[k] == idx[k - 1];
    }
  }

  /** The positions of the kept elements form an embedding of the result into `s`. */
  lemma {:induction false} FilterEmbedding<T>(s: seq<T>, p: T -> bool) returns (idx: seq<nat>)
    ensures IsEmbedding(idx, Filter(s, p), s)
  {
    if |s| == 0 {
      idx := [];
    } else {
      var tail := Filter(s[1..], p);
      var rest := FilterEmbedding(s[1..], p);
      EmbeddingShift(rest, tail, s);
      if p(s[0]) {
        EmbeddingCons(Shift(rest), tail, s);
        idx := [0] + Shift(rest);
      } else {
        idx := Shift(rest);
      }
    }
  }

  /** A filter result is a subsequence of its input: it never reorders. */
  lemma FilterIsSubsequence<T>(s: seq<T>, p: T -> bool)
    ensures SubsequenceOf(Filter(s, p), s)
  {
    var idx := FilterEmbedding(s, p);
  }

  /** When every element passes, the filter returns its input unchanged. */
  lemma {:induction false} FilterKeepsAll<T>(s: seq<T>, p: T -> bool)
    requires forall i :: 0 <= i < |s| ==> p(s[i])
    ensures Filter(s, p) == s
  {
    if |s| > 0 {
      FilterKeepsAll(s[1..], p);
      assert s == [s[0]] + s[1..];
    }
  }

  /** When no element passes, the filter returns the empty sequence. */
  lemma FilterKeepsNone<T>(s: seq<T>, p: T -> bool)
    requires forall i :: 0 <= i < |s| ==> !p(s[i])
    ensures Filter(s, p) == []
  {
  }

  /** Filtering by two predicates that agree everywhere gives the same result. */
  lemma {:induction false} FilterCongruent<T>(s: seq<T>, p: T -> bool, q: T -> bool)
    requires forall x :: p(x) == q(x)
    ensures Filter(s, p) == Filter(s, q)
  {
    if |s| > 0 {
      FilterCongruent(s[1..], p, q);
    }
  }

  /** Two filters in a row are one filter by the conjunction. */
  lemma {:induction false} FilterFilter<T>(s: seq<T>, p: T -> bool, q: T -> bool, both: T -> bool)
    requires forall x :: both(x) == (p(x) && q(x))
    ensures Filter(Filter(s, p), q) == Filter(s, both)
  {
    if |s| > 0 {
      FilterFilter(s[1..], p, q, both);
      if p(s[0]) {
        assert Filter(s, p) == [s[0]] + Filter(s[1..], p);
        assert Filter(s, p)[1..] == Filter(s[1..], p);
      } else {
        assert Filter(s, p) == Filter(s[1..], p);
      }
    }
  }

  /** Filtering a filter result again by the same predicate changes nothing. */
  lemma FilterIdempotent<T>(s: seq<T>, p: T -> bool)
    ensures Filter(Filter(s, p), p) == Filter(s, p)
  {
    FilterKeepsAll(Filter(s, p), p);
  }

  /** Filtering keeps every copy of a passing element and drops every copy of a failing one. */
  lemma {:induction false} FilterMultiplicity<T>(s: seq<T>, p: T -> bool, x: T)
    ensures multiset(Filter(s, p))[x] == if p(x) then multiset(s)[x] else 0
  {
    if |s| > 0 {
      FilterMultiplicity(s[1..], p, x);
      assert s == [s[0]] + s[1..];
      assert multiset(s) == multiset([s[0]]) + multiset(s[1..]);
    }
  }

  /** Filtering distributes over concatenation. */
  lemma {:induction false} FilterConcat<T>(a: seq<T>, b: seq<T>, p: T -> bool)
    ensures Filter(a + b, p) == Filter(a, p) + Filter(b, p)
  {
    if |a| == 0 {
      assert a + b == b;
    } else {
      assert (a + b)[0] == a[0];
      assert (a + b)[1..] == a[1..] + b;
      FilterConcat(a[1..], b, p);
    }
  }

  /** When exactly the element at `k` passes, the filter returns just that element. */
  lemma {:induction false} FilterSelectsOne<T>(s: seq<T>, p: T -> bool, k: nat)
    requires k < |s|
    requires forall j :: 0 <= j < |s| ==> (p(s[j]) <==> j == k)
    ensures Filter(s, p) == [s[k]]
  {
    if k == 0 {
      FilterKeepsNone(s[1..], p);
    } else {
      FilterSelectsOne(s[1..], p, k - 1);
    }
  }

  /** When exactly the elements at `a < b` pass, the filter returns those two, in order. */
  lemma {:induction false} FilterSelectsTwo<T>(s: seq<T>, p: T -> bool, a: nat, b: nat)
    requires a < b < |s|
    requires forall j :: 0 <= j < |s| ==> (p(s[j]) <==> j == a || j == b)
    ensures Filter(s, p) == [s[a], s[b]]
  {
    if a == 0 {
      FilterSelectsOne(s[1..], p, b - 1);
    } else {
      FilterSelectsTwo(s[1..], p, a - 1, b - 1);
    }
  }

  /** When exactly the first `b` elements pass, the filter keeps that prefix. */
  lemma {:induction false} FilterKeepsPrefix<T>(s: seq<T>, p: T -> bool, b: nat)
    requires b <= |s|
    requires forall i :: 0 <= i < |s| ==> (p(s[i]) <==> i < b)
    ensures Filter(s, p) == s[..b]
  {
    if b == 0 {
      FilterKeepsNone(s, p);
    } else {
      FilterKeepsPrefix(s[1..], p, b - 1);
      assert s[..b] == [s[0]] + s[1..][..b - 1];
    }
  }

  /** When exactly the elements from `b` on pass, the filter keeps that suffix. */
  lemma {:induction false} FilterKeepsSuffix<T>(s: seq<T>, p: T -> bool, b: nat)
    requires b <= |s|
    requires forall i :: 0 <= i < |s| ==> (p(s[i]) <==> b <= i)
    ensures Filter(s, p) == s[b..]
  {
    if b == 0 {
      FilterKeepsAll(s, p);
    } else {
      FilterKeepsSuffix(s[1..], p, b - 1);
      assert s[1..][b - 1..] == s[b..];
    }
  }

}

=== FILE: stash_filter.dfy ===
/**
 * The stash page's filter pipeline (the `filteredItems` memo of
 * src/app/stash/page.tsx): a free-text search stage, a rarity stage and a
 * category stage, applied in that order to the selected tab's items. Each
 * stage is a stable filter that is skipped when its input is inactive.
 */
module StashFilter {

  import opened Wrappers
  import opened Strings
  import opened Seqs
  import opened StashTypes

  /** The selector value that switches a stage off. */
  const AllSelector := "all"

  /** The rarity options the controls offer. */
  const RaritySelectors := ["all", "unique", "rare", "magic", "normal"]

  /** The category options the controls offer. */
  const CategorySelectors := ["all", "currency", "equipment", "map", "gem", "flask", "divcard"]

  // ---------------------------------------------------------------------
  // Rarity selectors and frame types
  // ---------------------------------------------------------------------

  /** The frame type a rarity selector asks for; `None` for "all" and for every unknown value. */
  function RarityCode(selector: string): Option<int> {
    if selector == "normal" then Some(0)
    else if selector == "magic" then Some(1)
    else if selector == "rare" then Some(2)
    else if selector == "unique" then Some(3)
    else None
  }

  /** The selector that asks for a frame type, for the four equipment-style rarities. */
  function RaritySelectorFor(code: int): Option<string> {
    if code == 0 then Some("normal")
    else if code == 1 then Some("magic")
    else if code == 2 then Some("rare")
    else if code == 3 then Some("unique")
    else None
  }

  /**
   * Selectors and codes correspond one to one: a selector that names a frame
   * type is the selector for that code, and exactly the codes 0..3 have one.
   */
  lemma RarityCodeRoundTrip(selector: string, code: int)
    ensures RarityCode(selector) == Some(code) <==> RaritySelectorFor(code) == Some(selector)
    ensures RaritySelectorFor(code).Some? <==> 0 <= code <= 3
  {
  }

  /** Every non-"all" rarity option of the controls names a frame type. */
  lemma RaritySelectorsAreKnown()
    ensures forall i :: 1 <= i < |RaritySelectors| ==> RarityCode(RaritySelectors[i]).Some?
    ensures RarityCode(RaritySelectors[0]) == None
  {
  }

  // ---------------------------------------------------------------------
  // The three stage predicates
  // ---------------------------------------------------------------------

  /** The search stage's test: the lower-cased term occurs in the lower-cased name or type line. */
  predicate MatchesSearch(term: string, item: Item)
    ensures MatchesSearch(term, item) ==> |term| <= |item.name| || |term| <= |item.typeLine|
  {
    var q := Lower(term);
    Contains(Lower(item.name), q) || (item.typeLine != "" && Contains(Lower(item.typeLine), q))
  }

  /** The rarity stage's test; a selector that names no frame type lets everything through. */
  predicate MatchesRarity(selector: string, item: Item)
    ensures item.frameType.None? ==> (MatchesRarity(selector, item) <==> RarityCode(selector).None?)
  {
    match RarityCode(selector)
    case None => true
    case Some(code) => item.frameType == Some(code)
  }

  /** Frame type defined and at most Unique (3): the equipment-style rarities. */
  predicate EquipmentLike(item: Item) {
    item.frameType.Some? && item.frameType.value <= 3
  }

  /** The category stage's test; a selector outside the vocabulary lets everything through. */
  predicate MatchesCategory(selector: string, item: Item)
    ensures MatchesCategory(selector, item) && selector in CategorySelectors[1..] ==> item.frameType.Some?
  {
    var typeLineLower := Lower(item.typeLine);
    if selector == "currency" then item.frameType == Some(5)
    else if selector == "equipment" then
      EquipmentLike(item) && !Contains(typeLineLower, "flask") && !Contains(typeLineLower, "map")
    else if selector == "map" then EquipmentLike(item) && Contains(typeLineLower, "map")
    else if selector == "gem" then item.frameType == Some(4)
    else if selector == "flask" then EquipmentLike(item) && Contains(typeLineLower, "flask")
    else if selector == "divcard" then item.frameType == Some(6)
    else true
  }

  function SearchTest(term: string): Item -> bool {
    item => MatchesSearch(term, item)
  }

  function RarityTest(selector: string): Item -> bool {
    item => MatchesRarity(selector, item)
  }

  function CategoryTest(selector: string): Item -> bool {
    item => MatchesCategory(selector, item)
  }

  // ---------------------------------------------------------------------
  // The pipeline
  // ---------------------------------------------------------------------

  /** Stage 1: active for a non-empty search term. */
  function SearchStage(items: seq<Item>, term: string): (r: seq<Item>)
    ensures forall x :: x in r <==> x in items && (term == "" || MatchesSearch(term, x))
  {
    if term != "" then Filter(items, SearchTest(term)) else items
  }

  /** Stage 2: active for any rarity selector other than "all". */
  function RarityStage(items: seq<Item>, selector: string): (r: seq<Item>)
    ensures forall x :: x in r <==> x in items && (selector == AllSelector || MatchesRarity(selector, x))
  {
    if selector != AllSelector then Filter(items, RarityTest(selector)) else items
  }

  /** Stage 3: active for any category selector other than "all". */
  function CategoryStage(items: seq<Item>, selector: string): (r: seq<Item>)
    ensures forall x :: x in r <==> x in items && (selector == AllSelector || MatchesCategory(selector, x))
  {
    if selector != AllSelector then Filter(items, CategoryTest(selector)) else items
  }

  /** Whether an item survives all three stages. */
  predicate Keeps(term: string, rarity: string, category: string, item: Item) {
    && (term == "" || MatchesSearch(term, item))
    && (rarity == AllSelector || MatchesRarity(rarity, item))
    && (category == AllSelector || MatchesCategory(category, item))
  }

  /** The items shown for a tab selection, search term, rarity selector and category selector. */
  function FilteredItems(selectedTab: Option<StashTab>, term: string, rarity: string, category: string): (r: seq<Item>)
    ensures selectedTab.None? ==> r == []
    ensures selectedTab.Some? ==> forall x :: x in r <==> x in selectedTab.value.items && Keeps(term, rarity, category, x)
    ensures selectedTab.Some? && term == "" && rarity == AllSelector && category == AllSelector ==>
      r == selectedTab.value.items
  {
    match selectedTab
    case None => []
    case Some(tab) =>
      CategoryStage(RarityStage(SearchStage(tab.items, term), rarity), category)
  }

  // ---------------------------------------------------------------------
  // The pipeline is one filter by the conjunction of the stages
  // ---------------------------------------------------------------------

  function SearchGuard(term: string): Item -> bool {
    item => term == "" || MatchesSearch(term, item)
  }

  function RarityGuard(selector: string): Item -> bool {
    item => selector == AllSelector || MatchesRarity(selector, item)
  }

  function CategoryGuard(selector: string): Item -> bool {
    item => selector == AllSelector || MatchesCategory(selector, item)
  }

  function SearchAndRarityGuard(term: string, rarity: string): Item -> bool {
    item => SearchGuard(term)(item) && RarityGuard(rarity)(item)
  }

  function KeepTest(term: string, rarity: string, category: string): Item -> bool {
    item => Keeps(term, rarity, category, item)
  }

  /** A stage that is skipped when inactive is a filter by "inactive or passes". */
  lemma StageIsFilter(items: seq<Item>, active: bool, test: Item -> bool, guard: Item -> bool)
    requires forall item :: guard(item) == (!active || test(item))
    ensures (if active then Filter(items, test) else items) == Filter(items, guard)
  {
    if active {
      FilterCongruent(items, test, guard);
    } else {
      FilterKeepsAll(items, guard);
    }
  }

  lemma SearchStageIsFilter(items: seq<Item>, term: string)
    ensures SearchStage(items, term) == Filter(items, SearchGuard(term))
  {
    StageIsFilter(items, term != "", SearchTest(term), SearchGuard(term));
  }

  lemma RarityStageIsFilter(items: seq<Item>, rarity: string)
    ensures RarityStage(items, rarity) == Filter(items, RarityGuard(rarity))
  {
    StageIsFilter(items, rarity != AllSelector, RarityTest(rarity), RarityGuard(rarity));
  }

  lemma CategoryStageIsFilter(items: seq<Item>, category: string)
    ensures CategoryStage(items, category) == Filter(items, CategoryGuard(category))
  {
    StageIsFilter(items, category != AllSelector, CategoryTest(category), CategoryGuard(category));
  }

  /** The three stages together are one stable filter by `Keeps`. */
  lemma PipelineIsConjunction(tab: StashTab, term: string, rarity: string, category: string)
    ensures FilteredItems(Some(tab), term, rarity, category) == Filter(tab.items, KeepTest(term, rarity, category))
  {
    var s1 := SearchStage(tab.items, term);
    var s2 := RarityStage(s1, rarity);
    SearchStageIsFilter(tab.items, term);
    RarityStageIsFilter(s1, rarity);
    CategoryStageIsFilter(s2, category);
    var g12 := SearchAndRarityGuard(term, rarity);
    FilterFilter(tab.items, SearchGuard(term), RarityGuard(rarity), g12);
    assert s2 == Filter(tab.items, g12);
    FilterFilter(tab.items, g12, CategoryGuard(category), KeepTest(term, rarity, category));
  }

  /** The result never reorders: it is a subsequence of the tab's items. */
  lemma FilteredItemsIsSubsequence(tab: StashTab, term: string, rarity: string, category: string)
    ensures SubsequenceOf(FilteredItems(Some(tab), term, rarity, category), tab.items)
  {
    PipelineIsConjunction(tab, term, rarity, category);
    FilterIsSubsequence(tab.items, KeepTest(term, rarity, category));
  }

  /** Running the pipeline again on its own output, with the same inputs, changes nothing. */
  lemma FilteredItemsIdempotent(tab: StashTab, term: string, rarity: string, category: string)
    ensures var r := FilteredItems(Some(tab), term, rarity, category);
      FilteredItems(Some(tab.(items := r)), term, rarity, category) == r
  {
    var r := FilteredItems(Some(tab), term, rarity, category);
    PipelineIsConjunction(tab, term, rarity, category);
    PipelineIsConjunction(tab.(items := r), term, rarity, category);
    FilterIdempotent(tab.items, KeepTest(term, rarity, category));
  }

  // ---------------------------------------------------------------------
  // What each stage admits
  // ---------------------------------------------------------------------

  /**
   * With a non-empty term and no other filter, an item survives exactly when
   * the lower-cased term occurs in its lower-cased name or type line.
   */
  lemma SearchSurvivors(tab: StashTab, term: string, item: Item)
    requires term != "" && item in tab.items
    ensures item in FilteredItems(Some(tab), term, AllSelector, AllSelector) <==>
      Contains(Lower(item.name), Lower(term)) || Contains(Lower(item.typeLine), Lower(term))
  {
    var q := Lower(term);
    if item.typeLine == "" {
      ContainsNeedsEveryChar(Lower(item.typeLine), q, 0);
    }
    var r := FilteredItems(Some(tab), term, AllSelector, AllSelector);
    if item in r {
      var i :| 0 <= i < |r| && r[i] == item;
    }
  }

  /** The search stage's `if (searchTerm)` guard changes nothing: the empty term matches every item. */
  lemma SearchGuardRedundant(items: seq<Item>)
    ensures SearchStage(items, "") == Filter(items, SearchTest(""))
  {
    forall i | 0 <= i < |items|
      ensures SearchTest("")(items[i])
    {
      ContainsEmpty(Lower(items[i].name));
    }
    FilterKeepsAll(items, SearchTest(""));
  }

  /** The search ignores the case of the term: a lower-cased term matches the same items. */
  lemma SearchIgnoresTermCase(term: string, item: Item)
    ensures MatchesSearch(Lower(term), item) == MatchesSearch(term, item)
  {
    LowerIdempotent(term);
  }

  /** A rarity selector that names a frame type admits only items of exactly that frame type. */
  lemma RaritySurvivorsMatch(tab: StashTab, term: string, rarity: string, category: string, code: int)
    requires RarityCode(rarity) == Some(code)
    ensures forall item :: item in FilteredItems(Some(tab), term, rarity, category) ==>
      item.frameType == Some(code)
  {
    var r := FilteredItems(Some(tab), term, rarity, category);
    forall item | item in r
      ensures item.frameType == Some(code)
    {
      var i :| 0 <= i < |r| && r[i] == item;
    }
  }

  /** An item with no frame type never survives a rarity selector that names one. */
  lemma NoFrameTypeFailsRarity(tab: StashTab, term: string, rarity: string, category: string, item: Item)
    requires RarityCode(rarity).Some? && item.frameType.None?
    ensures item !in FilteredItems(Some(tab), term, rarity, category)
  {
    RaritySurvivorsMatch(tab, term, rarity, category, RarityCode(rarity).value);
  }

  /** A rarity selector that names no frame type leaves the items as they are. */
  lemma UnknownRarityKeepsAll(items: seq<Item>, rarity: string)
    requires RarityCode(rarity).None?
    ensures RarityStage(items, rarity) == items
  {
    if rarity != AllSelector {
      FilterKeepsAll(items, RarityTest(rarity));
    }
  }

  /** A category selector outside the vocabulary leaves the items as they are. */
  lemma UnknownCategoryKeepsAll(items: seq<Item>, category: string)
    requires category !in CategorySelectors
    ensures CategoryStage(items, category) == items
  {
    FilterKeepsAll(items, CategoryTest(category));
  }

  /**
   * The category table: currency, gem and divcard are frame types 5, 4, 6;
   * flask, map and equipment need a defined frame type of at most 3, and
   * among such items equipment is exactly "neither flask nor map".
   */
  lemma CategoryRules(item: Item)
    ensures MatchesCategory("currency", item) <==> item.frameType == Some(5)
    ensures MatchesCategory("gem", item) <==> item.frameType == Some(4)
    ensures MatchesCategory("divcard", item) <==> item.frameType == Some(6)
    ensures MatchesCategory("flask", item) ==> EquipmentLike(item)
    ensures MatchesCategory("map", item) ==> EquipmentLike(item)
    ensures MatchesCategory("equipment", item) ==> EquipmentLike(item)
    ensures EquipmentLike(item) ==>
      (MatchesCategory("equipment", item) <==> !MatchesCategory("flask", item) && !MatchesCategory("map", item))
  {
  }

  /** No rarity selector other than "all" admits a gem, currency or divination card. */
  lemma RarityExcludesNonEquipment(rarity: string, item: Item)
    requires RarityCode(rarity).Some?
    requires item.frameType == Some(4) || item.frameType == Some(5) || item.frameType == Some(6)
    ensures !MatchesRarity(rarity, item)
  {
  }
}

=== FILE: stash_page.dfy ===
/**
 * The stash page (src/app/stash/page.tsx) wiring: the initial tab, the hover
 * handlers that feed the detail panel, and the grid that receives the
 * filtered items together with the selected tab's kind.
 */
module StashPage {

  import opened Wrappers
  import opened Seqs
  import opened StashTypes
  import opened StashFilter
  import opened ItemCard
  import opened ItemGrid
  import opened TooltipPlacement

  /** The tab selected when the page opens: the first one, or none for an empty catalog. */
  function InitialTab(tabs: seq<StashTab>): (t: Option<StashTab>)
    ensures t.Some? <==> |tabs| > 0
    ensures t.Some? ==> t.value == tabs[0]
  {
    if |tabs| > 0 then Some(tabs[0]) else None
  }

  /** The hover state the detail panel receives: the item and the pointer position. */
  datatype Hover = Hover(item: Option<Item>, coords: Option<Point>)

  /** The hover state when the page opens: no item and no pointer position. */
  const InitialHover := Hover(None, None)

  /** The item and the pointer position are set together: both or neither. */
  predicate Consistent(h: Hover) {
    h.item.Some? <==> h.coords.Some?
  }

  /** Pointer enters a card: remember the item and where the pointer is. */
  function MouseEnter(item: Item, clientX: int, clientY: int): (h: Hover)
    ensures Consistent(h) && h.item == Some(item)
  {
    Hover(Some(item), Some(Point(clientX, clientY)))
  }

  /** Pointer leaves a card: forget both, which is the opening state again. */
  const MouseLeave := Hover(None, None)

  /** A pointer event on a card. */
  datatype HoverEvent = Enter(item: Item, clientX: int, clientY: int) | Leave

  /** The hover state after one event; the handlers overwrite both fields, whatever came before. */
  function Step(h: Hover, e: HoverEvent): Hover {
    match e
    case Enter(item, x, y) => MouseEnter(item, x, y)
    case Leave => MouseLeave
  }

  /** The hover state after a sequence of events, starting from `h`. */
  function Run(h: Hover, events: seq<HoverEvent>): Hover
    decreases |events|
  {
    if |events| == 0 then h else Run(Step(h, events[0]), events[1..])
  }

  /**
   * Any sequence of pointer events keeps the item and the position set
   * together, and the state after it is decided by the last event alone.
   */
  lemma {:induction false} RunFromLastEvent(h: Hover, events: seq<HoverEvent>)
    requires Consistent(h)
    ensures Consistent(Run(h, events))
    decreases |events|
    ensures |events| == 0 ==> Run(h, events) == h
    ensures |events| > 0 ==> Run(h, events) == Step(InitialHover, events[|events| - 1])
  {
    if |events| > 0 {
      var h' := Step(h, events[0]);
      assert Consistent(h');
      RunFromLastEvent(h', events[1..]);
      if |events| > 1 {
        assert events[1..][|events[1..]| - 1] == events[|events| - 1];
      }
    }
  }

  /**
   * From the opening state, a mounted panel is shown after a sequence of
   * pointer events exactly when the last event entered a card, and then it
   * shows that card's item.
   */
  lemma PanelFollowsLastEvent(events: seq<HoverEvent>, prev: Style, panel: Size, viewport: Size)
    ensures var h := Run(InitialHover, events);
      && (UpdateStyle(prev, h.item, h.coords, Some(panel), viewport).opacity == 1 <==>
           |events| > 0 && events[|events| - 1].Enter?)
      && (|events| > 0 && events[|events| - 1].Enter? ==> h.item == Some(events[|events| - 1].item))
  {
    RunFromLastEvent(InitialHover, events);
  }

  /** After the pointer leaves a card the panel is hidden, and keeps its last `top`/`left`. */
  lemma LeavingHidesPanel(prev: Style, panel: Option<Size>, viewport: Size)
    ensures var s := UpdateStyle(prev, MouseLeave.item, MouseLeave.coords, panel, viewport);
      s.opacity == 0 && s.top == prev.top && s.left == prev.left
  {
  }

  /** Entering a card with the panel mounted shows it at the placement for that pointer. */
  lemma EnteringShowsPanel(prev: Style, item: Item, clientX: int, clientY: int, panel: Size, viewport: Size)
    ensures var h := MouseEnter(item, clientX, clientY);
      var s := UpdateStyle(prev, h.item, h.coords, Some(panel), viewport);
      && s.opacity == 1
      && s.top == Some(Place(Point(clientX, clientY), panel, viewport).top)
      && s.left == Some(Place(Point(clientX, clientY), panel, viewport).left)
  {
  }

  /** The kind passed to the grid: the selected tab's type, or nothing. */
  function SelectedTabType(selectedTab: Option<StashTab>): Option<string> {
    match selectedTab
    case None => None
    case Some(tab) => Some(tab.tabType)
  }

  /** The grid the page shows: the filtered items, laid out for the selected tab's kind. */
  function StashView(selectedTab: Option<StashTab>, term: string, rarity: string, category: string): (v: GridView)
    ensures selectedTab.None? ==> v == SelectTabPrompt
    ensures v.Grid? ==> selectedTab.Some? && v.columns == ColumnCount(selectedTab.value.tabType)
  {
    RenderGrid(FilteredItems(selectedTab, term, rarity, category), SelectedTabType(selectedTab))
  }

  /** For a tab of known kind, the empty message shows exactly when no item of the tab passes the filters. */
  lemma NoItemsMessageIffNoneKept(tab: StashTab, term: string, rarity: string, category: string)
    requires tab.tabType != ""
    ensures StashView(Some(tab), term, rarity, category).NoItemsMessage? <==>
      forall x :: x in tab.items ==> !Keeps(term, rarity, category, x)
  {
    var r := FilteredItems(Some(tab), term, rarity, category);
    if |r| > 0 {
      assert r[0] in r;
    }
  }

  /** With no tab selected the page shows the prompt, whatever the filters. */
  lemma NoTabShowsPrompt(term: string, rarity: string, category: string)
    ensures StashView(None, term, rarity, category) == SelectTabPrompt
  {
  }

  /**
   * Filtering never changes a remaining card's grid area: every card of the
   * filtered grid is a card of the unfiltered grid of the same tab (same
   * item, same area), and the column count is the tab's.
   */
  lemma FilteringKeepsCardPlacement(tab: StashTab, term: string, rarity: string, category: string)
    ensures var v := StashView(Some(tab), term, rarity, category);
      var full := RenderGrid(tab.items, Some(tab.tabType));
      v.Grid? ==> (
        && full.Grid?
        && v.columns == full.columns
        && forall k :: 0 <= k < |v.cards| ==> v.cards[k] in full.cards)
  {
    var r := FilteredItems(Some(tab), term, rarity, category);
    var v := StashView(Some(tab), term, rarity, category);
    var full := RenderGrid(tab.items, Some(tab.tabType));
    if v.Grid? {
      forall k | 0 <= k < |v.cards|
        ensures v.cards[k] in full.cards
      {
        assert r[k] in tab.items;
        var j :| 0 <= j < |tab.items| && tab.items[j] == r[k];
        assert full.cards[j] == MakeCard(tab.items[j]);
      }
    }
  }

  /** The filtered grid's cards follow the order of the tab's items. */
  lemma FilteredCardsInTabOrder(tab: StashTab, term: string, rarity: string, category: string)
    requires tab.tabType != ""
    ensures var v := StashView(Some(tab), term, rarity, category);
      var r := FilteredItems(Some(tab), term, rarity, category);
      (v.Grid? || v.NoItemsMessage?) && (v.Grid? ==> |v.cards| == |r|) && SubsequenceOf(r, tab.items)
  {
    FilteredItemsIsSubsequence(tab, term, rarity, category);
  }
}

=== FILE: stash_types.dfy ===
/**
 * The stash data model: items, the tabs that hold them, and the sockets,
 * modifiers, properties and requirements an item carries. Every optional
 * field of the record types is an `Option`; numbers are integers.
 */
module StashTypes {

  import opened Wrappers

  /** One `[text, colourHint]` pair of a property or requirement. */
  type PropertyValue = (string, int)

  /** A labelled list of values shown in the detail panel. */
  datatype ItemProperty = ItemProperty(
    name: string,
    values: seq<PropertyValue>,
    displayMode: int,
    propType: Option<int> := None)

  /** Requirements have exactly the shape of properties. */
  type Requirement = ItemProperty

  /** Attribute affinity of a socket: Strength, Dexterity, Intelligence. */
  datatype SocketAttr = S | D | I

  /** Socket colour: Red, Green, Blue, White. */
  datatype SocketColour = R | G | B | W

  /** A socket; sockets sharing a `group` are linked. */
  datatype Socket = Socket(group: int, sColour: SocketColour, attr: Option<SocketAttr> := None)

  datatype Influence = Shaper | Elder | Crusader | Redeemer | Hunter | Warlord

  /** The sub-kind of a modifier, which only changes how it is emphasised. */
  datatype ModType = Crafted | Enchant | Fractured

  /** The sub-kind as the catalog stores it: a lower-case tag. */
  function ModTypeTag(t: ModType): string {
    match t
    case Crafted => "crafted"
    case Enchant => "enchant"
    case Fractured => "fractured"
  }

  /** A modifier's numeric payload: one number, or a `[min, max]` range. */
  datatype NumericValue = Single(value: int) | Range(min: int, max: int)

  datatype Mod = Mod(
    text: string,
    modType: Option<ModType> := None,
    numericValue: Option<NumericValue> := None,
    valueSuffix: Option<string> := None,
    valueColor: Option<string> := None)

  /**
   * An item. `frameType` encodes the rarity class: 0 Normal, 1 Magic, 2 Rare,
   * 3 Unique, 4 Gem, 5 Currency, 6 Divination Card; nothing forces a stored
   * value into that range.
   */
  datatype Item = Item(
    id: string,
    name: string,
    typeLine: string,
    icon: string,
    w: int,
    h: int,
    x: int,
    y: int,
    influence: Option<Influence> := None,
    league: Option<string> := None,
    ilvl: Option<int> := None,
    identified: Option<bool> := None,
    corrupted: Option<bool> := None,
    stackSize: Option<int> := None,
    maxStackSize: Option<int> := None,
    frameType: Option<int> := None,
    quality: Option<int> := None,
    properties: Option<seq<ItemProperty>> := None,
    explicitMods: Option<seq<Mod>> := None,
    implicitMods: Option<seq<Mod>> := None,
    utilityMods: Option<seq<Mod>> := None,
    descrText: Option<string> := None,
    flavourText: Option<string> := None,
    requirements: Option<seq<Requirement>> := None,
    sockets: Option<seq<Socket>> := None)

  datatype Colour = Colour(r: int, g: int, b: int)

  /** A stash tab; `tabType` names its kind, e.g. "PremiumStash" or "QuadStash". */
  datatype StashTab = StashTab(
    id: string,
    name: string,
    tabType: string,
    index: int,
    items: seq<Item>,
    colour: Option<Colour> := None)
}

=== FILE: strings.dfy ===
/**
 * The few string operations the stash viewer relies on: ASCII case mapping
 * (`toLowerCase`, `toUpperCase`), `startsWith`, `includes`, the first-occurrence search, and the decimal
 * rendering of integers that template literals such as `${n}` perform.
 */
module Strings {

  import opened Wrappers

  predicate IsUpper(c: char) { 'A' <= c <= 'Z' }

  predicate IsLower(c: char) { 'a' <= c <= 'z' }

  predicate IsDigit(c: char) { '0' <= c <= '9' }

  predicate AllDigits(s: string) {
    forall i :: 0 <= i < |s| ==> IsDigit(s[i])
  }

  // ---------------------------------------------------------------------
  // Case mapping (ASCII letters only)
  // ---------------------------------------------------------------------

  function LowerChar(c: char): char {
    if IsUpper(c) then (c as int + 32) as char else c
  }

  function UpperChar(c: char): char {
    if IsLower(c) then (c as int - 32) as char else c
  }

  /** `s.toLowerCase()`, character by character. */
  function Lower(s: string): (r: string)
    ensures |r| == |s|
    ensures forall i :: 0 <= i < |s| ==> r[i] == LowerChar(s[i])
  {
    seq(|s|, i requires 0 <= i < |s| => LowerChar(s[i]))
  }

  /** Lower-casing a second time changes nothing. */
  lemma LowerIdempotent(s: string)
    ensures Lower(Lower(s)) == Lower(s)
  {
  }

  /** Upper-casing a character and then lower-casing it gives its lower-case form. */
  lemma LowerOfUpperChar(c: char)
    ensures LowerChar(UpperChar(c)) == LowerChar(c)
  {
  }

  /** A lower-case letter is absent from `Lower(s)` when neither case of it occurs in `s`. */
  lemma LowerMissing(s: string, c: char)
    requires IsLower(c) && c !in s && UpperChar(c) !in s
    ensures c !in Lower(s)
  {
  }

  // ---------------------------------------------------------------------
  // Prefixes and substrings
  // ---------------------------------------------------------------------

  /** `s.startsWith(p)`. */
  predicate StartsWith(s: string, p: string) {
    |p| <= |s| && s[..|p|] == p
  }

  /** `t` occurs in `s` starting at position `i`. */
  predicate OccursAt(s: string, t: string, i: int) {
    0 <= i && i + |t| <= |s| && s[i..i + |t|] == t
  }

  /** `s.includes(t)`: `t` occurs in `s` at some position. */
  predicate Contains(s: string, t: string) {
    exists i | 0 <= i <= |s| :: OccursAt(s, t, i)
  }

  /** Every string contains the empty string (`s.includes("")` is true). */
  lemma ContainsEmpty(s: string)
    ensures Contains(s, "")
  {
    assert OccursAt(s, "", 0);
  }

  /** If one character of `t` never occurs in `s`, then `s` does not contain `t`. */
  lemma ContainsNeedsEveryChar(s: string, t: string, k: int)
    requires 0 <= k < |t| && t[k] !in s
    ensures !Contains(s, t)
  {
    forall i | 0 <= i && i + |t| <= |s|
      ensures !OccursAt(s, t, i)
    {
      assert s[i..i + |t|][k] == s[i + k];
      assert s[i + k] in s;
    }
  }

  // ---------------------------------------------------------------------
  // Decimal rendering of integers (`${n}` for an integral number)
  // ---------------------------------------------------------------------

  function DigitChar(d: nat): (c: char)
    requires d < 10
    ensures IsDigit(c)
  {
    (48 + d) as char
  }

  function DigitValue(c: char): nat
    requires IsDigit(c)
  {
    c as int - 48
  }

  /** The decimal digits of `n`, most significant first, without leading zeros. */
  function NatToString(n: nat): (r: string)
    ensures |r| >= 1 && AllDigits(r)
    ensures r[0] == '0' ==> n == 0
    ensures |r| > 1 ==> r[0] != '0'
    decreases n
  {
    if n < 10 then [DigitChar(n)] else NatToString(n / 10) + [DigitChar(n % 10)]
  }

  /** The value of a string of decimal digits (the empty string reads as 0). */
  function ParseNat(s: string): nat
    requires AllDigits(s)
  {
    if |s| == 0 then 0 else 10 * ParseNat(s[..|s| - 1]) + DigitValue(s[|s| - 1])
  }

  /** Reading back the digits of `n` gives `n`. */
  lemma {:induction false} ParseNatToString(n: nat)
    ensures ParseNat(NatToString(n)) == n
    decreases n
  {
    var s := NatToString(n);
    if n >= 10 {
      assert s[..|s| - 1] == NatToString(n / 10);
      ParseNatToString(n / 10);
    }
  }

  /** JavaScript's rendering of an integral number: an optional `-`, then the digits. */
  function IntToString(i: int): (r: string)
    ensures |r| >= 1
    ensures r[0] == '-' <==> i < 0
    ensures i >= 0 ==> AllDigits(r)
    ensures AllDigits(r[1..])
  {
    if i < 0 then
      var digits := NatToString(-i);
      assert ("-" + digits)[1..] == digits;
      "-" + digits
    else NatToString(i)
  }

  /** Reads an optionally negated decimal numeral; anything else is `None`. */
  function ParseInt(s: string): Option<int> {
    if |s| > 0 && s[0] == '-' then
      if |s| > 1 && AllDigits(s[1..]) then Some(0 - ParseNat(s[1..])) else None
    else if |s| > 0 && AllDigits(s) then Some(ParseNat(s))
    else None
  }

  /** Reading back the rendering of `i` gives `i`. */
  lemma ParseIntToString(i: int)
    ensures ParseInt(IntToString(i)) == Some(i)
  {
    var s := IntToString(i);
    if i < 0 {
      assert s[1..] == NatToString(-i);
      ParseNatToString(-i);
    } else {
      ParseNatToString(i);
    }
  }

  /** The position of the first `c` in `s`. */
  function IndexOf(s: string, c: char): (r: Option<nat>)
    ensures r.Some? ==> r.value < |s| && s[r.value] == c
    ensures r.Some? ==> forall k :: 0 <= k < r.value ==> s[k] != c
    ensures r.None? ==> c !in s
  {
    if |s| == 0 then None
    else if s[0] == c then Some(0)
    else match IndexOf(s[1..], c)
      case None => None
      case Some(k) => Some(k + 1)
  }

  /** `IndexOf` finds position `k` when `k` holds the character and no earlier position does. */
  lemma {:induction false} IndexOfFirst(s: string, c: char, k: nat)
    requires k < |s| && s[k] == c
    requires forall j :: 0 <= j < k ==> s[j] != c
    ensures IndexOf(s, c) == Some(k)
  {
    if k > 0 {
      IndexOfFirst(s[1..], c, k - 1);
    }
  }
}

=== FILE: tooltip_placement.dfy ===
/**
 * Where the item detail panel goes (the placement effect of
 * src/components/stash/ItemDetailTooltip.tsx). Each axis is placed on its own:
 * below/right of the pointer by a fixed offset, flipped above/left when it
 * would cross the far viewport edge less the offset, then clamped so that it
 * never starts closer than the offset to the near edge. Measurements are
 * whole pixels.
 */
module TooltipPlacement {

  import opened Wrappers
  import opened StashTypes

  /** Distance from the pointer, and minimum distance from the viewport edges. */
  const Offset := 20

  datatype Point = Point(x: int, y: int)

  datatype Size = Size(width: int, height: int)

  /** The panel's `(left, top)` corner. */
  datatype Position = Position(left: int, top: int)

  /**
   * One axis: `anchor` is the pointer coordinate, `extent` the panel's size
   * and `viewport` the viewport's size along that axis.
   */
  function PlaceAxis(anchor: int, extent: int, viewport: int): (p: int)
    ensures p >= Offset
    ensures anchor >= 0 && anchor + Offset + extent <= viewport - Offset ==> p == anchor + Offset
    ensures anchor + Offset + extent > viewport - Offset ==> p == Offset || p == anchor - extent - Offset
    ensures anchor + Offset + extent > viewport - Offset && anchor - extent - Offset >= Offset ==> p == anchor - extent - Offset
    ensures anchor + Offset + extent <= viewport - Offset && anchor < 0 ==> p == Offset
  {
    var start := anchor + Offset;
    var flipped := if start + extent > viewport - Offset then anchor - extent - Offset else start;
    if flipped < Offset then Offset else flipped
  }

  /** Both axes: vertical from `coords.y`, horizontal from `coords.x`. */
  function Place(coords: Point, panel: Size, viewport: Size): (r: Position)
    ensures r.left >= Offset && r.top >= Offset
  {
    Position(
      left := PlaceAxis(coords.x, panel.width, viewport.width),
      top := PlaceAxis(coords.y, panel.height, viewport.height))
  }

  /** `top` depends only on the vertical inputs and `left` only on the horizontal ones. */
  lemma AxesIndependent(c1: Point, p1: Size, v1: Size, c2: Point, p2: Size, v2: Size)
    ensures c1.y == c2.y && p1.height == p2.height && v1.height == v2.height ==>
      Place(c1, p1, v1).top == Place(c2, p2, v2).top
    ensures c1.x == c2.x && p1.width == p2.width && v1.width == v2.width ==>
      Place(c1, p1, v1).left == Place(c2, p2, v2).left
  {
  }

  /**
   * For a pointer inside the viewport and a panel that fits between the two
   * margins, the panel lies entirely within the margins.
   */
  lemma PanelStaysInside(anchor: int, extent: int, viewport: int)
    requires 0 <= anchor <= viewport
    requires extent <= viewport - 2 * Offset
    ensures Offset <= PlaceAxis(anchor, extent, viewport) <= viewport - Offset - extent
  {
  }

  /** The two-axis form of `PanelStaysInside`. */
  lemma PlacedPanelInsideViewport(coords: Point, panel: Size, viewport: Size)
    requires 0 <= coords.x <= viewport.width && 0 <= coords.y <= viewport.height
    requires panel.width <= viewport.width - 2 * Offset
    requires panel.height <= viewport.height - 2 * Offset
    ensures var r := Place(coords, panel, viewport);
      && Offset <= r.left <= viewport.width - Offset - panel.width
      && Offset <= r.top <= viewport.height - Offset - panel.height
  {
    PanelStaysInside(coords.x, panel.width, viewport.width);
    PanelStaysInside(coords.y, panel.height, viewport.height);
  }

  /** A panel wider than the space between the margins is pinned to the near margin. */
  lemma OversizedPanelPinned(anchor: int, extent: int, viewport: int)
    requires 0 <= anchor <= viewport
    requires extent > viewport - 2 * Offset
    ensures PlaceAxis(anchor, extent, viewport) == Offset
  {
  }

  /**
   * The containment promise needs the pointer inside the viewport: a pointer
   * reported past the right edge puts a fitting panel past the right margin.
   */
  lemma PointerOutsideBreaksContainment()
    ensures PlaceAxis(1000, 100, 800) > 800 - Offset - 100
  {
  }

  /** Pointer at (1900, 100), panel 200 by 400, viewport 1920 by 1080. */
  lemma NearRightEdgeScenario()
    ensures Place(Point(1900, 100), Size(200, 400), Size(1920, 1080)) == Position(1680, 120)
  {
  }

  // ---------------------------------------------------------------------
  // The panel's dynamic style
  // ---------------------------------------------------------------------

  /**
   * The style state of the panel: fixed positioning, stacking order and
   * pointer transparency never change; `top`/`left` are absent until the
   * first placement.
   */
  datatype Style = Style(
    opacity: int,
    position: string,
    zIndex: int,
    pointerEvents: string,
    top: Option<int>,
    left: Option<int>)

  const InitialStyle := Style(0, "fixed", 50, "none", None, None)

  /**
   * The panel starts hidden, fixed, above the grid and transparent to the
   * pointer, with no placement. Every run of the effect keeps the fixed
   * parts, and a run that does not show the panel leaves the initial style as
   * it is.
   */
  lemma InitialStyleHidden(item: Option<Item>, coords: Option<Point>, panel: Option<Size>, viewport: Size)
    ensures InitialStyle.opacity == 0 && InitialStyle.top.None? && InitialStyle.left.None?
    ensures var s := UpdateStyle(InitialStyle, item, coords, panel, viewport);
      && s.position == "fixed" && s.zIndex == 50 && s.pointerEvents == "none"
      && (s.opacity == 0 ==> s == InitialStyle)
  {
  }

  /**
   * One run of the placement effect. `panel` is the mounted panel's measured
   * size (`None` when the panel is not mounted) and `viewport` the window's
   * inner size. Showing needs an item, pointer coordinates and a mounted panel.
   */
  function UpdateStyle(prev: Style, item: Option<Item>, coords: Option<Point>, panel: Option<Size>, viewport: Size): (s: Style)
    ensures s.position == prev.position && s.zIndex == prev.zIndex && s.pointerEvents == prev.pointerEvents
    ensures s.opacity == 1 <==> item.Some? && coords.Some? && panel.Some?
    ensures s.opacity == 1 ==> var at := Place(coords.value, panel.value, viewport);
      s.top == Some(at.top) && s.left == Some(at.left)
    ensures s.opacity != 1 ==> s == prev.(opacity := 0)
  {
    if item.Some? && coords.Some? && panel.Some? then
      var at := Place(coords.value, panel.value, viewport);
      prev.(top := Some(at.top), left := Some(at.left), opacity := 1)
    else
      prev.(opacity := 0)
  }

  /** Once shown, the panel's `top` and `left` are at least the offset from the viewport edges. */
  lemma ShownPanelRespectsMargins(prev: Style, item: Option<Item>, coords: Option<Point>, panel: Option<Size>, viewport: Size)
    requires UpdateStyle(prev, item, coords, panel, viewport).opacity == 1
    ensures var s := UpdateStyle(prev, item, coords, panel, viewport);
      s.top.Some? && s.left.Some? && s.top.value >= Offset && s.left.value >= Offset
  {
  }

  /**
   * Hiding keeps the last coordinates: a hide after a show drops the opacity
   * to 0 and leaves `top` and `left` at the shown placement.
   */
  lemma HideKeepsLastPlacement(item: Item, coords: Point, panel: Size, viewport: Size)
    ensures var shown := UpdateStyle(InitialStyle, Some(item), Some(coords), Some(panel), viewport);
      var hidden := UpdateStyle(shown, None, None, Some(panel), viewport);
      && hidden.opacity == 0
      && hidden.top == shown.top && hidden.left == shown.left
      && hidden.top.Some?
  {
  }

  /** The style never leaves the two-state shape: opacity is always 0 or 1. */
  lemma OpacityIsBinary(prev: Style, item: Option<Item>, coords: Option<Point>, panel: Option<Size>, viewport: Size)
    ensures UpdateStyle(prev, item, coords, panel, viewport).opacity in {0, 1}
  {
  }
}

=== FILE: tooltip_text.dfy ===
/**
 * The text the item detail panel derives from an item
 * (src/components/stash/ItemDetailTooltip.tsx): modifier lines with their
 * type prefix and numeric value, socket link groups, capitalised influence
 * labels, and the colour-class lookup tables.
 */
module TooltipText {

  import opened Wrappers
  import opened Strings
  import opened Seqs
  import opened StashTypes

  // ---------------------------------------------------------------------
  // Modifier lines
  // ---------------------------------------------------------------------

  /** The emphasis prefix of a modifier sub-kind: empty for a plain modifier, else the capitalised tag in parentheses and a space. */
  function TypePrefix(t: Option<ModType>): (r: string)
    ensures r == "" <==> t.None?
    ensures t.Some? ==> |r| >= 3 && r[0] == '(' && r[|r| - 2..] == ") "
    ensures t.Some? ==> r == "(" + Capitalize(ModTypeTag(t.value)) + ") "
  {
    match t
    case Some(Crafted) => "(Crafted) "
    case Some(Enchant) => "(Enchant) "
    case Some(Fractured) => "(Fractured) "
    case None => ""
  }

  /**
   * The class of a modifier line: the sub-kind's colour, else the list's
   * default, else blue. A sub-kind overrides the default, so the default
   * reaches only plain modifiers, and the line never goes without a class.
   */
  function ModClass(mod: Mod, defaultClass: Option<string>): (r: string)
    ensures r != ""
    ensures mod.modType.None? ==> r == defaultClass.GetOr("") || r == "text-blue-400"
    ensures mod.modType.None? && defaultClass.Some? && defaultClass.value != "" ==> r == defaultClass.value
    ensures mod.modType.None? && (defaultClass.None? || defaultClass.value == "") ==> r == "text-blue-400"
  {
    match mod.modType
    case Some(Crafted) => "text-cyan-300"
    case Some(Enchant) => "text-purple-300"
    case Some(Fractured) => "text-yellow-300"
    case None => if defaultClass.Some? && defaultClass.value != "" then defaultClass.value else "text-blue-400"
  }

  /**
   * A sub-kind decides the class on its own: the list's default is ignored,
   * and the three sub-kinds get three classes, none of them the blue fallback.
   */
  lemma ModClassRules(m1: Mod, d1: Option<string>, m2: Mod, d2: Option<string>)
    ensures m1.modType.Some? && m1.modType == m2.modType ==> ModClass(m1, d1) == ModClass(m2, d2)
    ensures m1.modType.Some? && m2.modType.Some? ==>
      (ModClass(m1, d1) == ModClass(m2, d2) <==> m1.modType == m2.modType)
    ensures m1.modType.Some? ==> ModClass(m1, d1) != "text-blue-400"
  {
  }

  /** Texts that read as a direct bonus get an explicit `+` on a positive value. */
  predicate IsBonusText(text: string) {
    StartsWith(text, "to ") || StartsWith(text, "Adds ")
  }

  /** The number as shown: `(min-max)` for a range, `+v` for a positive bonus, `v` otherwise. */
  function ValueText(v: NumericValue, text: string): (r: string)
    ensures |r| >= 1
    ensures r[0] == '(' <==> v.Range?
    ensures r[0] == '+' <==> v.Single? && v.value > 0 && IsBonusText(text)
  {
    match v
    case Range(lo, hi) => "(" + IntToString(lo) + "-" + IntToString(hi) + ")"
    case Single(n) => if n > 0 && IsBonusText(text) then "+" + IntToString(n) else IntToString(n)
  }

  /** The numeric part of a modifier line, suffix included; empty when the modifier has no value. */
  function NumericDisplay(mod: Mod): (r: string)
    ensures r == "" <==> mod.numericValue.None?
  {
    match mod.numericValue
    case None => ""
    case Some(v) => ValueText(v, mod.text) + mod.valueSuffix.GetOr("")
  }

  /**
   * The text content of a modifier line. It starts with the sub-kind prefix
   * and ends with the modifier's text; between them stand the numeric display
   * and a space exactly when the modifier has a value.
   */
  function ModText(mod: Mod): (r: string)
    ensures var pre := TypePrefix(mod.modType);
      && |r| >= |pre| + |mod.text|
      && r[..|pre|] == pre
      && r[|r| - |mod.text|..] == mod.text
      && (mod.numericValue.None? <==> |r| == |pre| + |mod.text|)
  {
    var shown := NumericDisplay(mod);
    TypePrefix(mod.modType) + (if shown != "" then shown + " " + mod.text else mod.text)
  }

  datatype ModLine = ModLine(cls: string, text: string)

  /** `formatMods`: nothing for a missing or empty list, otherwise one line per modifier. */
  function FormatMods(mods: Option<seq<Mod>>, defaultClass: Option<string>): (r: Option<seq<ModLine>>)
    ensures r.None? <==> mods.None? || |mods.value| == 0
    ensures r.Some? ==> |r.value| == |mods.value|
    ensures r.Some? ==> forall i :: 0 <= i < |r.value| ==> r.value[i].text == ModText(mods.value[i])
    ensures r.Some? ==> forall i :: 0 <= i < |r.value| ==> r.value[i].cls == ModClass(mods.value[i], defaultClass)
  {
    if mods.None? || |mods.value| == 0 then None
    else Some(seq(|mods.value|, i requires 0 <= i < |mods.value| =>
      ModLine(ModClass(mods.value[i], defaultClass), ModText(mods.value[i]))))
  }

  // ---------------------------------------------------------------------
  // Reading a shown value back
  // ---------------------------------------------------------------------

  /**
   * Decodes a shown value. `(a-b)` splits at the first `-` after the first
   * character of `a`, so that a negative lower bound keeps its sign; a
   * leading `+` is dropped.
   */
  function ParseValueText(d: string): Option<NumericValue> {
    if |d| >= 3 && d[0] == '(' && d[|d| - 1] == ')' then
      var inner := d[1..|d| - 1];
      match IndexOf(inner[1..], '-')
      case None => None
      case Some(j) =>
        match (ParseInt(inner[..j + 1]), ParseInt(inner[j + 2..]))
        case (Some(lo), Some(hi)) => Some(Range(lo, hi))
        case _ => None
    else if |d| >= 1 && d[0] == '+' then
      match ParseInt(d[1..])
      case Some(n) => Some(Single(n))
      case None => None
    else
      match ParseInt(d)
      case Some(n) => Some(Single(n))
      case None => None
  }

  /** Past its first character, the rendering of `lo` holds no `-`: the next `-` is the separator. */
  lemma SeparatorIsFirstDash(lo: int, rest: string)
    ensures var a := IntToString(lo);
      IndexOf((a + "-" + rest)[1..], '-') == Some(|a| - 1)
  {
    var a := IntToString(lo);
    var s := (a + "-" + rest)[1..];
    var k := |a| - 1;
    assert s[k] == '-';
    forall j | 0 <= j < k
      ensures s[j] != '-'
    {
      assert s[j] == a[1..][j];
    }
    IndexOfFirst(s, '-', k);
  }

  /** The shown number determines the stored payload: decoding `ValueText` gives the value back. */
  lemma ValueTextRoundTrip(v: NumericValue, text: string)
    ensures ParseValueText(ValueText(v, text)) == Some(v)
  {
    match v
    case Range(lo, hi) => RangeTextRoundTrip(lo, hi, text);
    case Single(n) => SingleTextRoundTrip(n, text);
  }

  lemma RangeTextRoundTrip(lo: int, hi: int, text: string)
    ensures ParseValueText(ValueText(Range(lo, hi), text)) == Some(Range(lo, hi))
  {
    ParseIntToString(lo);
    ParseIntToString(hi);
    SeparatorIsFirstDash(lo, IntToString(hi));
    ParseRangeText(IntToString(lo), IntToString(hi), lo, hi);
  }

  /** `(a-b)` decodes to the range of `a` and `b` when the first `-` after `a`'s first character is the one between them. */
  lemma ParseRangeText(a: string, b: string, lo: int, hi: int)
    requires |a| >= 1 && ParseInt(a) == Some(lo) && ParseInt(b) == Some(hi)
    requires IndexOf((a + "-" + b)[1..], '-') == Some(|a| - 1)
    ensures ParseValueText("(" + a + "-" + b + ")") == Some(Range(lo, hi))
  {
    var inner := a + "-" + b;
    var d := "(" + a + "-" + b + ")";
    assert d == "(" + inner + ")";
    assert d[1..|d| - 1] == inner;
    assert inner[..|a|] == a;
    assert inner[|a| + 1..] == b;
  }

  lemma SingleTextRoundTrip(n: int, text: string)
    ensures ParseValueText(ValueText(Single(n), text)) == Some(Single(n))
  {
    var d := ValueText(Single(n), text);
    ParseIntToString(n);
    if n > 0 && IsBonusText(text) {
      assert d[1..] == IntToString(n);
    } else {
      assert d == IntToString(n);
      if n >= 0 {
        assert d[0] != '(';
      }
    }
  }

  // ---------------------------------------------------------------------
  // Socket link groups
  // ---------------------------------------------------------------------

  function SameGroup(g: int): Socket -> bool {
    (s: Socket) => s.group == g
  }

  /** The sockets of link group `g`, in their original order. */
  function SocketsInGroup(sockets: seq<Socket>, g: int): seq<Socket> {
    Filter(sockets, SameGroup(g))
  }

  /** `groups` holds, for each link group seen in `sockets`, that group's sockets in order. */
  ghost predicate GroupsOf(groups: map<int, seq<Socket>>, sockets: seq<Socket>) {
    && groups.Keys == (set s | s in sockets :: s.group)
    && forall g :: g in groups ==> groups[g] == SocketsInGroup(sockets, g)
  }

  /** Appending one socket to its group's bucket keeps `GroupsOf` for the longer prefix. */
  lemma GroupStep(groups: map<int, seq<Socket>>, prefix: seq<Socket>, s: Socket)
    requires GroupsOf(groups, prefix)
    ensures var bucket := if s.group in groups then groups[s.group] else [];
      GroupsOf(groups[s.group := bucket + [s]], prefix + [s])
  {
    var bucket := if s.group in groups then groups[s.group] else [];
    var next := groups[s.group := bucket + [s]];
    if s.group !in groups {
      FilterKeepsNone(prefix, SameGroup(s.group));
    }
    forall g | g in next
      ensures next[g] == SocketsInGroup(prefix + [s], g)
    {
      FilterAppend(prefix, s, SameGroup(g));
    }
    assert next.Keys == (set x | x in prefix + [s] :: x.group);
  }

  /**
   * The grouping loop of the panel: each socket is appended to the bucket of
   * its link group, creating the bucket on first sight.
   */
  method GroupSockets(sockets: seq<Socket>) returns (groups: map<int, seq<Socket>>)
    ensures groups.Keys == set s | s in sockets :: s.group
    ensures forall g :: g in groups ==> groups[g] == SocketsInGroup(sockets, g)
  {
    groups := map[];
    var i := 0;
    while i < |sockets|
      invariant 0 <= i <= |sockets|
      invariant GroupsOf(groups, sockets[..i])
    {
      var s := sockets[i];
      GroupStep(groups, sockets[..i], s);
      assert sockets[..i + 1] == sockets[..i] + [s];
      var bucket := if s.group in groups then groups[s.group] else [];
      groups := groups[s.group := bucket + [s]];
      i := i + 1;
    }
    assert sockets[..i] == sockets;
  }

  /**
   * The groups partition the sockets: group `g` holds every copy of every
   * socket whose link group is `g` and nothing else, in the original order.
   */
  lemma GroupsPartitionSockets(sockets: seq<Socket>, g: int)
    ensures forall x :: multiset(SocketsInGroup(sockets, g))[x] == (if x.group == g then multiset(sockets)[x] else 0)
    ensures SubsequenceOf(SocketsInGroup(sockets, g), sockets)
  {
    forall x
      ensures multiset(SocketsInGroup(sockets, g))[x] == if x.group == g then multiset(sockets)[x] else 0
    {
      FilterMultiplicity(sockets, SameGroup(g), x);
    }
    FilterIsSubsequence(sockets, SameGroup(g));
  }

  function SocketColourClass(c: SocketColour): string {
    match c
    case R => "bg-red-600"
    case G => "bg-green-600"
    case B => "bg-blue-600"
    case W => "bg-gray-300"
  }

  /** The four socket colours are drawn in four different classes. */
  lemma SocketColoursDistinct(a: SocketColour, b: SocketColour)
    ensures SocketColourClass(a) == SocketColourClass(b) <==> a == b
  {
  }

  // ---------------------------------------------------------------------
  // Capitalisation and influence labels
  // ---------------------------------------------------------------------

  /** `capitalizeFirstLetter`: upper-cases the first character; the empty string stays empty. */
  function Capitalize(s: string): (r: string)
    ensures |r| == |s|
    ensures |s| > 0 ==> !IsLower(r[0]) && LowerChar(r[0]) == LowerChar(s[0])
    ensures |s| > 0 ==> r[1..] == s[1..]
  {
    if s == "" then "" else [UpperChar(s[0])] + s[1..]
  }

  /** Capitalising only changes case: the lower-cased forms agree, and a second pass changes nothing. */
  lemma CapitalizeOnlyChangesCase(s: string)
    ensures Lower(Capitalize(s)) == Lower(s)
    ensures Capitalize(Capitalize(s)) == Capitalize(s)
  {
    if s != "" {
      LowerOfUpperChar(s[0]);
      assert Lower(Capitalize(s))[0] == Lower(s)[0];
    }
  }

  /** The influence as stored: a lower-case word. */
  function InfluenceName(i: Influence): string {
    match i
    case Shaper => "shaper"
    case Elder => "elder"
    case Crusader => "crusader"
    case Redeemer => "redeemer"
    case Hunter => "hunter"
    case Warlord => "warlord"
  }

  /** The influence line of the panel, e.g. "Shaper Influence". */
  function InfluenceLabel(i: Influence): string {
    Capitalize(InfluenceName(i)) + " Influence"
  }

  /** The one-letter badge of the influence icon. */
  function InfluenceBadge(i: Influence): string {
    [UpperChar(InfluenceName(i)[0])]
  }

  /** Each influence gets its own label, whose badge is the label's first letter. */
  lemma InfluenceLabelsDistinct(a: Influence, b: Influence)
    ensures InfluenceLabel(a) == InfluenceLabel(b) <==> a == b
    ensures InfluenceBadge(a) == InfluenceLabel(a)[..1]
  {
    assert InfluenceLabel(a)[..|InfluenceName(a)|] == Capitalize(InfluenceName(a));
    assert InfluenceLabel(b)[..|InfluenceName(b)|] == Capitalize(InfluenceName(b));
  }

  function InfluenceColourClass(influence: Option<Influence>): string {
    match influence
    case None => ""
    case Some(Shaper) => "text-cyan-400"
    case Some(Elder) => "text-purple-400"
    case Some(Crusader) => "text-yellow-500"
    case Some(Redeemer) => "text-sky-400"
    case Some(Hunter) => "text-green-500"
    case Some(Warlord) => "text-orange-500"
  }

  function InfluenceIconBgClass(influence: Option<Influence>): string {
    match influence
    case None => ""
    case Some(Shaper) => "bg-cyan-500"
    case Some(Elder) => "bg-purple-500"
    case Some(Crusader) => "bg-yellow-600"
    case Some(Redeemer) => "bg-sky-500"
    case Some(Hunter) => "bg-green-600"
    case Some(Warlord) => "bg-orange-600"
  }

  /** Both influence tables are empty for no influence and tell the six influences apart. */
  lemma InfluenceClassesDistinct(a: Option<Influence>, b: Option<Influence>)
    ensures InfluenceColourClass(a) == InfluenceColourClass(b) <==> a == b
    ensures InfluenceIconBgClass(a) == InfluenceIconBgClass(b) <==> a == b
    ensures InfluenceColourClass(a) == "" <==> a.None?
  {
  }

  // ---------------------------------------------------------------------
  // Rarity colour
  // ---------------------------------------------------------------------

  const DefaultRarityClass := "text-white"

  /** `getRarityColorClass`: a colour per frame type 1..6, white for everything else. */
  function RarityColourClass(frameType: Option<int>): (r: string)
    ensures r == DefaultRarityClass <==> !(frameType.Some? && 1 <= frameType.value <= 6)
  {
    if frameType == Some(1) then "text-blue-400"
    else if frameType == Some(2) then "text-yellow-400"
    else if frameType == Some(3) then "text-amber-500"
    else if frameType == Some(4) then "text-teal-400"
    else if frameType == Some(5) then "text-yellow-300"
    else if frameType == Some(6) then "text-orange-300"
    else DefaultRarityClass
  }

  /**
   * The rarity colour falls back to white exactly outside frame types 1..6
   * (Normal included), and different frame types in 1..6 get different colours.
   */
  lemma RarityColoursDistinct(a: Option<int>, b: Option<int>)
    ensures RarityColourClass(a) == DefaultRarityClass <==> !(a.Some? && 1 <= a.value <= 6)
    ensures a.Some? && 1 <= a.value <= 6 && b.Some? && 1 <= b.value <= 6 ==>
      (RarityColourClass(a) == RarityColourClass(b) <==> a == b)
  {
  }
}

=== FILE: wrappers.dfy ===
/** Optional values: the model of TypeScript's `field?: T` and `T | null`. */
module Wrappers {

  datatype Option<+T> = None | Some(value: T) {

    /** The value, or `default` when absent (TypeScript's `x ?? default`). */
    function GetOr(default: T): T {
      match this
      case Some(v) => v
      case None => default
    }
  }
}
